=== FILE: README.md ===
# ItemEdit command dispatcher — a Dafny model

This project models the core of ItemEdit's `AbstractCommand`: the root command that owns an
ordered registry of sub-commands, routes an invocation to one of them through a fixed
sequence of permission and precondition checks, falls back to help, renders paginated help
with clickable previous/next controls cut out of a template string, and answers
tab-completion. Everything is stated as pure functions over immutable data:

- a `Sender` record (`perms`, `isPlayer`, `handEmpty`) stands for the Bukkit command sender;
- a `SubCmd` record (`name`, `permission`, `playerOnly`, `checkNonNullItem`) stands for a
  sub-command, and an `Entry` is either a `Registered` sub-command or the built-in `Help`
  pseudo-command (the Java code tells them apart by reference);
- a `Command` holds the registered sub-commands in registration order and, when multi-page
  help is on, the help pseudo-command with its page size (`PerPage`, never below 4);
- the decisions of `onCommand` are an `Outcome` (`ShowHelp(page)`, `LackPermission(perm)`,
  `PlayerOnly`, `NoItem`, `Execute(entry)`), what the sender finally sees is a `Reply`, a
  help screen is a `HelpView`, and a rendered header or footer is a sequence of `Segment`s
  (`Text`, `NextActive(target)`, `NextVoid`, `PrevActive(target)`, `PrevVoid`).

Modules: `Options`, `Seqs` (order-preserving filter), `Strings` (ASCII case folding,
`indexOf`, first-occurrence split, `replace`), `Numbers` (`String.valueOf(int)` and
`Integer.parseInt`), `Paging`, `Registry`, `Markers` (`injectClickablePages`),
`HelpCommand` (the `HelpSubCommand`), `Dispatch`, `Completion`.

Three behaviours of the code are worth knowing:

- the help pseudo-command is returned by lookup only when the sender's allowed view is
  non-empty (`getSubCmd`, line 248);
- `validateRequires` waives the permission check for the help pseudo-command, but
  `onTabComplete` does not: completing arguments of `help` needs the help permission;
- the first-token completion matches the lower-cased token against the names with a
  case-sensitive `startsWith`.

One behaviour of the marker split is worth knowing: a next marker that shares a `%` with the
previous marker yields no next control, whichever of the two comes first. In
`%prev_clickable%next_clickable%` the previous-marker split consumes the next marker's leading
`%` (`Markers.SharedPercentHidesNext`). In `%next_clickable%prev_clickable%` the first previous
marker is found at 15, inside the next marker, so the text in front of it is the literal
`%next_clickable` (`Markers.SharedPercentHidesNextBeforePrev`). So the whole text holding the
next marker does not guarantee a next control, and `Markers.InjectControlCounts` states only
"a next control is emitted only if the next marker occurs". The exact count is per part:
one next control for the text in front of the first previous marker if it holds the next
marker, and one for the text after it if that holds the next marker
(`Markers.LayoutNextCount`).

## Model

| member | source | states |
|---|---|---|
| `Paging.PerPageFrom` | src/main/java/emanondev/itemedit/command/AbstractCommand.java:295-298 | The page size is at least 4 and at least the configured value, and is one of the two. |
| `Registry.NewCommand` | src/main/java/emanondev/itemedit/command/AbstractCommand.java:56-66 | A new command has no sub-commands; it has the help pseudo-command exactly when multi-page help is requested, named "help", neither player-only nor item-checked, with a page size of max(4, configured). |
| `Registry.RegisterSubCommand` | src/main/java/emanondev/itemedit/command/AbstractCommand.java:104-106 | Registration appends exactly the given sub-command after the existing ones and leaves the help untouched; no uniqueness check. |
| `Registry.RegisterSupplied` | src/main/java/emanondev/itemedit/command/AbstractCommand.java:115-126 | Returns true exactly when the supplier yields a sub-command, which is then appended; a null result or a thrown error returns false and leaves the registry unchanged. |
| `Registry.RegisterIf` | src/main/java/emanondev/itemedit/command/AbstractCommand.java:135-140 | A false condition returns false with the registry unchanged, whatever the supplier would do; otherwise it behaves as the supplier registration. |
| `Registry.Reload` | src/main/java/emanondev/itemedit/command/AbstractCommand.java:71-79 | Reload keeps the registry (names and order); it reloads the configuration first, then each sub-command in registration order, then the help last when present; the help's page size is re-read as max(4, configured). |
| `Registry.Permitted` | src/main/java/emanondev/itemedit/command/AbstractCommand.java:89-93 | Exactly the registered sub-commands whose permission the sender holds, as an order-preserving subsequence of the registry. |
| `Registry.PermittedCounts` | src/main/java/emanondev/itemedit/command/AbstractCommand.java:89-93 | A sub-command registered several times appears in the permitted list exactly as often as it is registered when its permission is held, and never otherwise: duplicates are kept, as `list.add` does. |
| `Registry.AllowedSubCommands` | src/main/java/emanondev/itemedit/command/AbstractCommand.java:87-98 | The permitted sub-commands in registration order, then the help pseudo-command as the last element exactly when help is enabled and the registry (not the permitted list) is non-empty; the help appears nowhere else. |
| `Registry.AllowedEmptyIffNothingRegistered` | src/main/java/emanondev/itemedit/command/AbstractCommand.java:94-96 | With help enabled, a sender's allowed view is empty exactly when nothing is registered, whatever its permissions. |
| `Registry.FindFrom` | src/main/java/emanondev/itemedit/command/AbstractCommand.java:243-247 | The index found is the first at or after the start whose name equals the token ignoring case; none found means no such index exists. |
| `Registry.GetSubCmd` | src/main/java/emanondev/itemedit/command/AbstractCommand.java:242-252 | Returns the first registered sub-command matching the token ignoring case (later duplicates and the built-in help are shadowed); with no match, the help pseudo-command exactly when help is enabled, its name matches and the allowed view is non-empty; otherwise nothing. |
| `Registry.RegisterThenResolve` | src/main/java/emanondev/itemedit/command/AbstractCommand.java:242-247 | A sub-command registered under a name no earlier one matches is what lookup returns for that name. |
| `Registry.DuplicateIsShadowed` | src/main/java/emanondev/itemedit/command/AbstractCommand.java:243-247 | Registering a sub-command under a name an earlier one already matches leaves lookup of that name unchanged. |
| `Dispatch.ValidateRequires` | src/main/java/emanondev/itemedit/command/AbstractCommand.java:177-199 | No sub-command gives help at page 1, and help is shown only then; a registered sub-command whose permission is missing gives lack-permission with that permission (never for the help pseudo-command); then player-only for a non-player; then no-item for an empty hand; execution happens exactly when every check passes. |
| `Dispatch.FirstFailureWins` | src/main/java/emanondev/itemedit/command/AbstractCommand.java:183-198 | Against the list of all failing checks in declared order, the outcome is the first failure, and execution happens iff the list is empty. |
| `Dispatch.OnCommand` | src/main/java/emanondev/itemedit/command/AbstractCommand.java:142-148 | Empty arguments give help at page 1; otherwise the first argument is looked up and validated; an executed entry is the looked-up one, passes every check, and is the help only when help is enabled. |
| `Dispatch.SingleHelp` | src/main/java/emanondev/itemedit/command/AbstractCommand.java:206-223 | Without multi-page help, the listing holds exactly the permitted sub-commands in order; the generic denial is shown exactly when the sender holds none of their permissions. |
| `Dispatch.FallbackHelp` | src/main/java/emanondev/itemedit/command/AbstractCommand.java:201-205 | With help enabled the paginated help is shown: the denial iff nothing is registered, else exactly the rendered page of the allowed view at the clamped page. Without it, the single-page help, whose listing is exactly the permitted sub-commands. |
| `Dispatch.Invoke` | src/main/java/emanondev/itemedit/command/AbstractCommand.java:143-146 | A resolved registered sub-command that passes every check runs, with the unchanged arguments, and nothing else runs. Each failure message is sent exactly when validation reports that failure, with its permission. A missing sub-command shows the fallback help. The help pseudo-command always reaches its own handling. |
| `Dispatch.HelpPageLands` | src/main/java/emanondev/itemedit/command/AbstractCommand.java:305-319 | `help <n>` for any page n in range reaches the help pseudo-command, parses n back, and shows exactly page n, when no registered sub-command is named "help". |
| `Dispatch.HelpNameResolves` | src/main/java/emanondev/itemedit/command/AbstractCommand.java:248 | With something registered and no sub-command named "help", the token "help" resolves to the help pseudo-command. |
| `Dispatch.PageCountFits` | src/main/java/emanondev/itemedit/command/AbstractCommand.java:300-302 | With fewer than 2^31 - 1 registered sub-commands, every help page number fits a Java `int`. |
| `Dispatch.NavigationLands` | src/main/java/emanondev/itemedit/command/AbstractCommand.java:392-395 | Re-running the command an active navigation control carries (`help <target>`) shows exactly page `target`, when no registered sub-command is named "help". |
| `Paging.MaxPageFor` | src/main/java/emanondev/itemedit/command/AbstractCommand.java:300-302 | The page count is 0 exactly for 0 entries, and otherwise the ceiling of entries / page size: (r-1)*perPage < n <= r*perPage. |
| `Paging.MaxPageAtMostSize` | src/main/java/emanondev/itemedit/command/AbstractCommand.java:300-302 | There are never more pages than entries. |
| `HelpCommand.PageCount` | src/main/java/emanondev/itemedit/command/AbstractCommand.java:357 | The help's page count (`getMaxPageFor` of the allowed view's size) is 0 exactly when nothing is registered, and never exceeds the allowed entries. |
| `Paging.ClampPage` | src/main/java/emanondev/itemedit/command/AbstractCommand.java:336 | The clamped page lies in [1, maxPage] when maxPage >= 1; in-range pages are unchanged, pages below 1 become 1, pages above become maxPage. |
| `Paging.ClampIdempotent` | src/main/java/emanondev/itemedit/command/AbstractCommand.java:336 | Clamping an already clamped page changes nothing. |
| `Paging.PageBounds` | src/main/java/emanondev/itemedit/command/AbstractCommand.java:343 | For a page in [1, maxPage] the sub-list bounds satisfy 0 <= start < end <= size and the page holds at most perPage entries. |
| `Paging.PageSlice` | src/main/java/emanondev/itemedit/command/AbstractCommand.java:343 | The page is non-empty, at most perPage long, and is the contiguous run of the list starting at perPage*(page-1); it is full unless it reaches the end of the list. |
| `Paging.PagesCover` | src/main/java/emanondev/itemedit/command/AbstractCommand.java:343-346 | Every entry i is listed, on page i / perPage + 1 at position i % perPage, and that page is in range. |
| `HelpCommand.RenderPage` | src/main/java/emanondev/itemedit/command/AbstractCommand.java:336-349 | A rendered page of a non-empty view is the requested page clamped into [1, maxPage]. Its entries are the `subList` of the view at that page: a contiguous run from perPage*(page-1), full unless it reaches the end. Header and footer are rendered for that page. |
| `HelpCommand.HelpPage` | src/main/java/emanondev/itemedit/command/AbstractCommand.java:333-353 | Paginated help is the generic denial exactly when nothing is registered, otherwise the rendered page of the sender's allowed view. |
| `HelpCommand.ClampedPageSameView` | src/main/java/emanondev/itemedit/command/AbstractCommand.java:333-336 | Asking for any page shows the same thing as asking for that page clamped to [1, maxPage]. |
| `HelpCommand.HelpOnCommand` | src/main/java/emanondev/itemedit/command/AbstractCommand.java:305-319 | A second argument that parses as an integer selects that page; one that does not parse but names a sub-command shows that sub-command's own help; anything else, or no second argument, shows page 1. |
| `Numbers.ParseInt` | src/main/java/emanondev/itemedit/command/AbstractCommand.java:309 | Accepts exactly an optional `+` or `-` followed by at least one decimal digit, with a value in the 32-bit range. The value is the digits' decimal value, negated after `-`. Every other string, including the empty one, is rejected. |
| `Numbers.NatToString` | src/main/java/emanondev/itemedit/command/AbstractCommand.java:358 | The decimal text of a natural number is a non-empty run of digits with no leading zero (only 0 itself starts with `0`); `NatToStringValue` gives its value. |
| `Numbers.NatToStringValue` | src/main/java/emanondev/itemedit/command/AbstractCommand.java:358 | The decimal value of the text of a natural number is that number. |
| `Numbers.IntToString` | src/main/java/emanondev/itemedit/command/AbstractCommand.java:358 | The decimal text of an integer starts with a minus exactly for negative values; the rest is a non-empty run of digits with no leading zero, except for `0` itself. |
| `Numbers.ParseIntRoundTrip` | src/main/java/emanondev/itemedit/command/AbstractCommand.java:456-458 | Every 32-bit integer printed as text parses back to itself. |
| `Strings.ReplaceAbsent` | src/main/java/emanondev/itemedit/command/AbstractCommand.java:358 | Replacing a pattern that does not occur anywhere in the text leaves the text unchanged. |
| `Strings.ReplaceAll` | src/main/java/emanondev/itemedit/command/AbstractCommand.java:358 | Text shorter than the pattern is unchanged, and text starting with the pattern starts with the replacement. `ReplaceAbsent` and `ReplaceLeftmost` characterise the rest. |
| `Strings.ReplaceLeftmost` | src/main/java/emanondev/itemedit/command/AbstractCommand.java:358 | Replacement works left to right: for any prefix holding no occurrence of the pattern, the prefix is copied, the first occurrence is replaced, and scanning resumes after it. |
| `Strings.ToLower` | src/main/java/emanondev/itemedit/command/AbstractCommand.java:257 | Lower-casing keeps the length, turns every upper-case ASCII letter into its lower-case letter, changes nothing else, and leaves no upper-case letter behind. |
| `Strings.EqualsIgnoreCase` | src/main/java/emanondev/itemedit/command/AbstractCommand.java:244-248 | Two names are equal ignoring case exactly when their lower-cased forms are equal. |
| `Strings.StartsWith` | src/main/java/emanondev/itemedit/command/AbstractCommand.java:259 | A name starts with a text exactly when the text is no longer than the name and agrees with it character by character. |
| `Strings.IndexOf` | src/main/java/emanondev/itemedit/command/AbstractCommand.java:359 | The index returned is an occurrence of the marker with no earlier occurrence; none means the marker does not occur. |
| `Strings.SplitFirst` | src/main/java/emanondev/itemedit/command/AbstractCommand.java:359-368 | With the marker present, head + marker + rest is the text and head holds no earlier occurrence; without it, the head is the whole text and the rest is absent. |
| `Strings.SplitHeadClean` | src/main/java/emanondev/itemedit/command/AbstractCommand.java:359-368 | The text in front of the split point never contains the marker: the cut is at its first occurrence. |
| `Strings.SplitHeadIsPrefix` | src/main/java/emanondev/itemedit/command/AbstractCommand.java:359-363 | When the marker occurs, the head is exactly the text in front of `indexOf`, as `substring(0, index)` takes it. |
| `Markers.NextControl` | src/main/java/emanondev/itemedit/command/AbstractCommand.java:392-407 | A next control is active exactly when page < maxPage, and then targets page + 1; otherwise it is void. Lines 429-443 repeat the same choice for the second next marker. |
| `Markers.PrevControl` | src/main/java/emanondev/itemedit/command/AbstractCommand.java:411-425 | A previous control is active exactly when page > 1, and then targets page - 1; otherwise it is void. |
| `Markers.Region` | src/main/java/emanondev/itemedit/command/AbstractCommand.java:373-388 | A region starts with its head text and otherwise holds only text and the next control for the page. |
| `Markers.Substitute` | src/main/java/emanondev/itemedit/command/AbstractCommand.java:358 | Substituting `%page%` and then `%max_page%` leaves a template holding neither placeholder unchanged. |
| `Markers.Layout` | src/main/java/emanondev/itemedit/command/AbstractCommand.java:359-445 | The split yields one to seven segments, and a text with neither marker is a single text segment. `LayoutEmittable`, `LayoutRoundTrip`, `LayoutCounts`, `LayoutNextCount`, `LayoutPrevPlacement` and `LayoutNextPlacement` characterise the rest. |
| `Markers.LayoutPrevPlacement` | src/main/java/emanondev/itemedit/command/AbstractCommand.java:359-389 | When the split holds a previous control, the previous marker occurs and the text in front of the control is exactly the text in front of its first occurrence. |
| `Markers.RegionFirstNext` | src/main/java/emanondev/itemedit/command/AbstractCommand.java:373-388 | A region's text directly in front of a next control contains no next marker: the cut is at the first occurrence. |
| `Markers.LayoutNextPlacement` | src/main/java/emanondev/itemedit/command/AbstractCommand.java:373-388 | In the whole split, every text directly in front of a next control contains no next marker, so each next control stands for the first next marker of its part. |
| `Markers.LayoutEmittable` | src/main/java/emanondev/itemedit/command/AbstractCommand.java:359-445 | The split of any text starts with text and holds only text, the next control for the page and the previous control for the page. |
| `Markers.InjectClickablePages` | src/main/java/emanondev/itemedit/command/AbstractCommand.java:356-446 | The rendering starts with text; a next control is active towards page+1 only when page < maxPage and void only otherwise; a previous control is active towards page-1 only when page > 1 and void only otherwise. |
| `Markers.RegionRoundTrip` | src/main/java/emanondev/itemedit/command/AbstractCommand.java:373-388 | A region with its next control put back as the marker is the text it was cut from. |
| `Markers.LayoutRoundTrip` | src/main/java/emanondev/itemedit/command/AbstractCommand.java:359-389 | The three-region split of any text, controls put back as markers, is that text. |
| `Markers.InjectRoundTrip` | src/main/java/emanondev/itemedit/command/AbstractCommand.java:358-389 | Replacing each next control by `%next_clickable%` and each previous control by `%prev_clickable%` and joining all segments gives the template after `%page%`/`%max_page%` substitution. |
| `Markers.RegionCounts` | src/main/java/emanondev/itemedit/command/AbstractCommand.java:373-388 | A region holds no previous control, and exactly one next control iff the next marker occurs in it. |
| `Markers.LayoutCounts` | src/main/java/emanondev/itemedit/command/AbstractCommand.java:359-445 | The split of any text emits at most one previous control, exactly when the previous marker occurs, and at most two next controls, only when the next marker occurs. |
| `Markers.LayoutNextCount` | src/main/java/emanondev/itemedit/command/AbstractCommand.java:359-445 | The split emits exactly one next control for the text before the first previous marker when it holds the next marker, plus one for the text after it when that holds the next marker, and no others. |
| `Markers.InjectControlCounts` | src/main/java/emanondev/itemedit/command/AbstractCommand.java:390-445 | A rendered template holds at most one previous control, present exactly when the substituted template contains the previous marker, and at most two next controls, present only when it contains the next marker. |
| `Markers.SharedPercentHidesNext` | src/main/java/emanondev/itemedit/command/AbstractCommand.java:359-389 | In `%prev_clickable%next_clickable%` the next marker occurs (at 15) but no next control is emitted. |
| `Markers.PrevFoundAfter` | src/main/java/emanondev/itemedit/command/AbstractCommand.java:359 | A previous marker appended to a text that holds its second character nowhere after the front is found by `indexOf` exactly where it was appended. |
| `Markers.FirstPrevAfterNext` | src/main/java/emanondev/itemedit/command/AbstractCommand.java:359 | In `%next_clickable%prev_clickable%` the first previous marker starts at 15, on the closing `%` of the next marker. |
| `Markers.ShortFrontLayout` | src/main/java/emanondev/itemedit/command/AbstractCommand.java:359-389 | When the first previous marker starts before a next marker could fit in front of it and ends the text, the split is that short text, the previous control, and an empty text. |
| `Markers.SharedPercentHidesNextBeforePrev` | src/main/java/emanondev/itemedit/command/AbstractCommand.java:359-389 | In `%next_clickable%prev_clickable%` the next marker occurs at 0, but the split starts with the literal text `%next_clickable` and emits no next control. |
| `Completion.CompleteCmd` | src/main/java/emanondev/itemedit/command/AbstractCommand.java:254-263 | Exactly the allowed names that start with the lower-cased token: every result starts with it and is an allowed name, every such allowed name is offered, in allowed order. |
| `Completion.NamesStartingWith` | src/main/java/emanondev/itemedit/command/AbstractCommand.java:258-262 | For any entry list: the names starting with the token, each an entry's name, every such name included, in entry order. |
| `Completion.NamesCounts` | src/main/java/emanondev/itemedit/command/AbstractCommand.java:258-262 | For any entry list, a name starting with the token is kept exactly as often as it occurs; any other name is dropped. |
| `Completion.CompleteCmdCounts` | src/main/java/emanondev/itemedit/command/AbstractCommand.java:258-262 | A matching name is offered exactly as many times as it occurs in the allowed view, so duplicates are kept; a non-matching name never appears. |
| `Completion.HelpCandidates` | src/main/java/emanondev/itemedit/command/AbstractCommand.java:454-461 | The help's candidates are `String.valueOf(1)`..`String.valueOf(maxPage)`, each parsing back to its page, followed by every allowed name in order. |
| `Completion.PageNumbers` | src/main/java/emanondev/itemedit/command/AbstractCommand.java:455-457 | The texts of the numbers 1..n, in order, each parsing back to its number. |
| `Completion.HelpOnComplete` | src/main/java/emanondev/itemedit/command/AbstractCommand.java:450-463 | Help completes only when exactly two arguments are given, matching the second against its candidates; otherwise nothing. |
| `Completion.OnTabComplete` | src/main/java/emanondev/itemedit/command/AbstractCommand.java:226-240 | No argument gives nothing, and one argument gives the first-token completion. With more arguments, a resolved sub-command whose permission the sender holds (the help's included) gets the completion: a registered one is delegated the arguments, the help pseudo-command completes them itself. Nothing resolving, or a missing permission, gives nothing. |

## Left out

- Bukkit types (`CommandSender`, `Player`, `ItemStack`, `ItemUtils.getHandItem`, `isAirOrNull`) are reduced to the `Sender` record; permission checks are membership in `perms`, and `handEmpty` stands for an empty or air main-hand item.
- BungeeCord rich text: `ComponentBuilder`, `FormatRetention`, colour codes and the click/hover event objects are rendering; a control keeps only its kind and target page, and a page keeps its header and footer as segments.
- Language and configuration lookups (`getLanguageString`, `getLanguageStringList`, `getConf*`, `YMLConfig.reload`) and the `send*` message helpers are external; the header and footer templates are parameters (`HelpTexts`), the configured page size is a parameter of construction and reload, and the messages are `Reply` and `HelpView` tags.
- The help permission string is derived inside `SubCmd`, whose source is not part of this model; it is a parameter of `Registry.NewCommand`.
- `SubCmd` internals (`getHelp`, `getDescription`, `onComplete`, `reload` and execution of concrete sub-commands) and `CompleteUtility.complete` are not part of this model: execution is the `Ran` reply, completion the `Delegated` and `Matched` requests, and reloading a sub-command is only its place in the reload order.
- `help(sender, alias, SubCmd)` (the single sub-command help text) is reduced to the `SubHelp(entry)` view.
- `printStackTrace` and the `Throwable` itself: a throwing supplier is the `Throws` variant.
- `Strings.ToLower`: Unicode case conversion of `toLowerCase(Locale.ENGLISH)` is reduced to ASCII folding.
- `Strings.EqualsIgnoreCase`: the Unicode case folding of `equalsIgnoreCase` is reduced to ASCII folding.
- `Numbers.ParseInt`: only ASCII digits are accepted, whereas `Integer.parseInt` also accepts other Unicode decimal digits.
- `Dispatch.OnCommand`: the Boolean it returns is `true` on every path and is not part of the model.
- `Paging.PageSlice`: the 32-bit overflow of `commandPerPage * page` is not modelled; it needs more than 2^30 allowed entries.
- `Dispatch.NavigationLands`: assumes fewer than 2^31 - 1 registered sub-commands, as a Java list size guarantees.
- `Dispatch.HelpPageLands`: assumes fewer than 2^31 - 1 registered sub-commands, for the same reason; `Dispatch.PageCountFits` carries the same assumption.
- `Strings.ReplaceAll`: requires a non-empty pattern; `String.replace` with an empty target is never used here (the patterns are the placeholder literals).
- Concurrency: none; every operation is a pure function of its arguments.

=== FILE: completion.dfy ===
/** `onTabComplete`, `completeCmd` and the help pseudo-command's `onComplete`. */
module Completion {
  import opened Options
  import opened Seqs
  import opened Strings
  import opened Numbers
  import opened Registry
  import opened HelpCommand

  /** A completion answer. The filtering a registered sub-command does on its own, and
      `CompleteUtility.complete`, are not part of this model: they are returned as requests. */
  datatype Completion =
      /** the final list of suggestions */
    | Names(names: seq<string>)
      /** ask the registered sub-command's own `onComplete` with these arguments */
    | Delegated(sub: SubCmd, args: seq<string>)
      /** `CompleteUtility.complete(token, candidates)` */
    | Matched(token: string, candidates: seq<string>)

  /** The names of `allowed` that start with `low`, in order. */
  function NamesStartingWith(allowed: seq<Entry>, low: string): (r: seq<string>)
    ensures forall i :: 0 <= i < |r| ==> StartsWith(r[i], low) && r[i] in EntryNames(allowed)
    ensures forall j :: 0 <= j < |allowed| && StartsWith(allowed[j].sub.name, low) ==> allowed[j].sub.name in r
    ensures IsSubsequence(r, EntryNames(allowed))
  {
    var names := EntryNames(allowed);
    var r := Filter(names, (n: string) => StartsWith(n, low));
    assert forall j :: 0 <= j < |allowed| && StartsWith(allowed[j].sub.name, low) ==> allowed[j].sub.name in r by {
      forall j | 0 <= j < |allowed| && StartsWith(allowed[j].sub.name, low) ensures allowed[j].sub.name in r {
        assert names[j] == allowed[j].sub.name && names[j] in names;
      }
    }
    r
  }

  /** `completeCmd`: names of the allowed view that start with the lower-cased partial token,
      in allowed order. */
  function CompleteCmd(cmd: Command, sender: Sender, prefix: string): (r: seq<string>)
    ensures forall i :: 0 <= i < |r| ==> StartsWith(r[i], ToLower(prefix))
    ensures forall i :: 0 <= i < |r| ==> r[i] in EntryNames(AllowedSubCommands(cmd, sender))
    ensures forall j :: (0 <= j < |AllowedSubCommands(cmd, sender)| &&
                         StartsWith(AllowedSubCommands(cmd, sender)[j].sub.name, ToLower(prefix))) ==>
                        AllowedSubCommands(cmd, sender)[j].sub.name in r
    ensures IsSubsequence(r, EntryNames(AllowedSubCommands(cmd, sender)))
  {
    NamesStartingWith(AllowedSubCommands(cmd, sender), ToLower(prefix))
  }

  /** A name listed several times in `allowed` is offered as many times when it starts with
      `low`, and not at all otherwise. */
  lemma NamesCounts(allowed: seq<Entry>, low: string)
    ensures forall n :: multiset(NamesStartingWith(allowed, low))[n] ==
              if StartsWith(n, low) then multiset(EntryNames(allowed))[n] else 0
  {
    FilterCounts(EntryNames(allowed), (n: string) => StartsWith(n, low));
  }

  /** Completion of the first token keeps duplicate names: a sub-command name registered twice
      and matching the token is offered twice. */
  lemma CompleteCmdCounts(cmd: Command, sender: Sender, prefix: string)
    ensures forall n :: multiset(CompleteCmd(cmd, sender, prefix))[n] ==
              if StartsWith(n, ToLower(prefix)) then multiset(EntryNames(AllowedSubCommands(cmd, sender)))[n] else 0
  {
    NamesCounts(AllowedSubCommands(cmd, sender), ToLower(prefix));
  }

  /** The texts `String.valueOf(1)` .. `String.valueOf(n)`; each parses back to its page. */
  function PageNumbers(n: nat): (r: seq<string>)
    ensures |r| == n
    ensures forall i :: 0 <= i < n ==> r[i] == IntToString(i + 1)
    ensures forall i :: 0 <= i < n && i < IntMax ==> ParseInt(r[i]) == Some(i + 1)
  {
    var pages := seq(n, i requires 0 <= i < n => IntToString(i + 1));
    assert forall i :: 0 <= i < n && i < IntMax ==> ParseInt(pages[i]) == Some(i + 1) by {
      forall i | 0 <= i < n && i < IntMax ensures ParseInt(pages[i]) == Some(i + 1) {
        assert pages[i] == IntToString(i + 1);
        ParseIntRoundTrip(i + 1);
      }
    }
    pages
  }

  /** The candidates the help pseudo-command offers for its argument: every page number,
      then every allowed name. */
  function HelpCandidates(cmd: Command, sender: Sender): (r: seq<string>)
    requires cmd.help.Some?
    ensures |r| == PageCount(cmd, sender) + |AllowedSubCommands(cmd, sender)|
    ensures forall i :: 0 <= i < PageCount(cmd, sender) ==> r[i] == IntToString(i + 1)
    ensures forall i :: 0 <= i < PageCount(cmd, sender) && i < IntMax ==> ParseInt(r[i]) == Some(i + 1)
    ensures forall j :: 0 <= j < |AllowedSubCommands(cmd, sender)| ==>
              r[PageCount(cmd, sender) + j] == AllowedSubCommands(cmd, sender)[j].sub.name
  {
    PageNumbers(PageCount(cmd, sender)) + EntryNames(AllowedSubCommands(cmd, sender))
  }

  /** `HelpSubCommand.onComplete`: only the second argument is completed. */
  function HelpOnComplete(cmd: Command, sender: Sender, args: seq<string>): (r: Completion)
    requires cmd.help.Some?
    ensures |args| != 2 ==> r == Names([])
    ensures |args| == 2 ==> r.Matched? && r.token == args[1] && r.candidates == HelpCandidates(cmd, sender)
  {
    if |args| != 2 then Names([]) else Matched(args[1], HelpCandidates(cmd, sender))
  }

  /** `onTabComplete`: the first token against the allowed names; a later token is handed to
      the resolved sub-command, but only when the sender holds its permission. */
  function OnTabComplete(cmd: Command, sender: Sender, args: seq<string>): (r: Completion)
    ensures |args| == 0 ==> r == Names([])
    ensures |args| == 1 ==> r == Names(CompleteCmd(cmd, sender, args[0]))
    ensures r.Delegated? ==> |args| > 1 && r.args == args && r.sub in cmd.subs
    ensures r.Delegated? ==> GetSubCmd(cmd, sender, args[0]) == Some(Registered(r.sub)) && HasPermission(sender, r.sub.permission)
    ensures r.Matched? ==> |args| == 2 && cmd.help.Some? && GetSubCmd(cmd, sender, args[0]) == Some(Help(cmd.help.value.sub))
    ensures r.Matched? ==> HasPermission(sender, cmd.help.value.sub.permission) && r.candidates == HelpCandidates(cmd, sender)
    ensures |args| > 1 && GetSubCmd(cmd, sender, args[0]).None? ==> r == Names([])
    ensures (|args| > 1 && GetSubCmd(cmd, sender, args[0]).Some? &&
             !HasPermission(sender, GetSubCmd(cmd, sender, args[0]).value.sub.permission)) ==> r == Names([])
    ensures (|args| > 1 && GetSubCmd(cmd, sender, args[0]).Some? && GetSubCmd(cmd, sender, args[0]).value.Registered? &&
             HasPermission(sender, GetSubCmd(cmd, sender, args[0]).value.sub.permission))
            ==> r == Delegated(GetSubCmd(cmd, sender, args[0]).value.sub, args)
    ensures (|args| > 1 && GetSubCmd(cmd, sender, args[0]).Some? && GetSubCmd(cmd, sender, args[0]).value.Help? &&
             HasPermission(sender, GetSubCmd(cmd, sender, args[0]).value.sub.permission))
            ==> cmd.help.Some? && r == HelpOnComplete(cmd, sender, args)
  {
    if |args| == 1 then Names(CompleteCmd(cmd, sender, args[0]))
    else if |args| > 1 then
      match GetSubCmd(cmd, sender, args[0])
      case Some(e) =>
        if !HasPermission(sender, e.sub.permission) then Names([])
        else if e.Help? then HelpOnComplete(cmd, sender, args)
        else Delegated(e.sub, args)
      case None => Names([])
    else Names([])
  }
}

=== FILE: dispatch.dfy ===
/** `onCommand` and `validateRequires`: routing an invocation to a sub-command, the built-in
    help or the help fallback, and the ordered precondition checks in between. */
module Dispatch {
  import opened Options
  import opened Seqs
  import opened Numbers
  import opened Paging
  import opened Registry
  import opened Markers
  import opened HelpCommand

  /** The decision of `validateRequires`: which message to send, or what to execute. */
  datatype Outcome =
    | ShowHelp(page: int)
    | LackPermission(permission: string)
    | PlayerOnly
    | NoItem
    | Execute(entry: Entry)

  /** Every precondition of `e` holds for `sender`: the permission (waived for the help
      pseudo-command), being a player when player-only, and holding an item when the
      sub-command also checks for one. */
  predicate Admitted(sender: Sender, e: Entry)
  {
    && (e.Help? || HasPermission(sender, e.sub.permission))
    && (e.sub.playerOnly ==> sender.isPlayer)
    && (e.sub.playerOnly && e.sub.checkNonNullItem ==> !sender.handEmpty)
  }

  /** Every failing precondition of `e`, in the order the checks are declared. */
  function Failures(sender: Sender, e: Entry): seq<Outcome>
  {
    (if e.Registered? && !HasPermission(sender, e.sub.permission) then [LackPermission(e.sub.permission)] else [])
    + (if e.sub.playerOnly && !sender.isPlayer then [PlayerOnly] else [])
    + (if e.sub.playerOnly && e.sub.checkNonNullItem && sender.handEmpty then [NoItem] else [])
  }

  /** `validateRequires`: no sub-command falls back to help at page 1; otherwise the first
      failing check is reported and nothing else is looked at. */
  function ValidateRequires(sender: Sender, target: Option<Entry>): (r: Outcome)
    ensures target.None? <==> r == ShowHelp(1)
    ensures r.ShowHelp? ==> target.None?
    ensures r.Execute? ==> target == Some(r.entry) && Admitted(sender, r.entry)
    ensures target.Some? && Admitted(sender, target.value) ==> r == Execute(target.value)
    ensures r.LackPermission? ==> target.Some? && target.value.Registered?
    ensures r.LackPermission? ==> r.permission == target.value.sub.permission && !HasPermission(sender, r.permission)
    ensures r.PlayerOnly? ==> target.Some? && target.value.sub.playerOnly && !sender.isPlayer
    ensures r.PlayerOnly? ==> target.value.Help? || HasPermission(sender, target.value.sub.permission)
    ensures r.NoItem? ==> target.Some? && target.value.sub.playerOnly && target.value.sub.checkNonNullItem
    ensures r.NoItem? ==> sender.isPlayer && sender.handEmpty
    ensures r.NoItem? ==> target.value.Help? || HasPermission(sender, target.value.sub.permission)
  {
    match target
    case None => ShowHelp(1)
    case Some(e) =>
      if !HasPermission(sender, e.sub.permission) && !e.Help? then LackPermission(e.sub.permission)
      else if e.sub.playerOnly && !sender.isPlayer then PlayerOnly
      else if e.sub.playerOnly && e.sub.checkNonNullItem && sender.handEmpty then NoItem
      else Execute(e)
  }

  /** Of several failing checks only the first one declared is reported; with none failing
      the sub-command runs. */
  lemma FirstFailureWins(sender: Sender, e: Entry)
    ensures |Failures(sender, e)| == 0 <==> Admitted(sender, e)
    ensures |Failures(sender, e)| == 0 ==> ValidateRequires(sender, Some(e)) == Execute(e)
    ensures |Failures(sender, e)| > 0 ==> ValidateRequires(sender, Some(e)) == Failures(sender, e)[0]
  {
  }

  /** `onCommand`: resolve the first argument, then validate; always reports "handled". */
  function OnCommand(cmd: Command, sender: Sender, args: seq<string>): (r: Outcome)
    ensures |args| == 0 ==> r == ShowHelp(1)
    ensures |args| > 0 ==> r == ValidateRequires(sender, GetSubCmd(cmd, sender, args[0]))
    ensures r.ShowHelp? ==> r.page == 1
    ensures r.Execute? ==> |args| > 0 && GetSubCmd(cmd, sender, args[0]) == Some(r.entry) && Admitted(sender, r.entry)
    ensures r.Execute? && r.entry.Registered? ==> r.entry.sub in cmd.subs
    ensures r.Execute? && r.entry.Help? ==> cmd.help.Some?
  {
    var target := if |args| > 0 then GetSubCmd(cmd, sender, args[0]) else None;
    ValidateRequires(sender, target)
  }

  /** Single-page help, used when multi-page help is off: every permitted sub-command's
      help block, or the generic denial when there is none. */
  function SingleHelp(cmd: Command, sender: Sender): (r: HelpView)
    ensures r.GenericDenied? || r.Listing?
    ensures r.GenericDenied? <==> forall s :: s in cmd.subs ==> !HasPermission(sender, s.permission)
    ensures r.Listing? ==> r.subs == Permitted(cmd, sender) && |r.subs| > 0
  {
    var permitted := Permitted(cmd, sender);
    if |permitted| == 0 then GenericDenied else Listing(permitted)
  }

  /** `help(sender, alias)`: the paginated help at `page` when it is enabled, otherwise the
      single-page help. */
  function FallbackHelp(cmd: Command, sender: Sender, texts: HelpTexts, page: int): (r: HelpView)
    ensures cmd.help.Some? ==> (r.GenericDenied? <==> |cmd.subs| == 0)
    ensures cmd.help.None? ==> (r.GenericDenied? <==> forall s :: s in cmd.subs ==> !HasPermission(sender, s.permission))
    ensures cmd.help.Some? && |cmd.subs| > 0 ==> r.Page? && r.page == ClampPage(page, PageCount(cmd, sender))
    ensures cmd.help.None? ==> r.GenericDenied? || r.Listing?
    ensures r.Listing? ==> cmd.help.None? && r.subs == Permitted(cmd, sender)
    ensures r.Page? ==> cmd.help.Some? && |AllowedSubCommands(cmd, sender)| > 0 &&
                        r == RenderPage(AllowedSubCommands(cmd, sender), cmd.help.value.perPage, texts, page)
  {
    if cmd.help.Some? then HelpPage(cmd, sender, texts, page) else SingleHelp(cmd, sender)
  }

  /** What the sender finally gets from an invocation. */
  datatype Reply =
    | Shown(view: HelpView)
    | LackPermissionMessage(permission: string)
    | PlayerOnlyMessage
    | NoItemMessage
      /** the arguments handed, unchanged, to a registered sub-command's own `onCommand` */
    | Ran(sub: SubCmd, args: seq<string>)

  /** `onCommand` followed through: the message for a failed check, help for a missing
      sub-command, the help pseudo-command's own handling, or the registered sub-command. */
  function Invoke(cmd: Command, sender: Sender, texts: HelpTexts, args: seq<string>): (r: Reply)
    ensures r.Ran? ==> r.args == args && |args| > 0 && r.sub in cmd.subs
    ensures r.Ran? ==> GetSubCmd(cmd, sender, args[0]) == Some(Registered(r.sub))
    ensures r.Ran? ==> Admitted(sender, Registered(r.sub))
    ensures r.LackPermissionMessage? ==> !HasPermission(sender, r.permission)
    ensures |args| == 0 || GetSubCmd(cmd, sender, args[0]).None? ==> r == Shown(FallbackHelp(cmd, sender, texts, 1))
    ensures Valid(cmd) && |args| > 0 && GetSubCmd(cmd, sender, args[0]).Some? && GetSubCmd(cmd, sender, args[0]).value.Help?
            ==> cmd.help.Some? && r == Shown(HelpOnCommand(cmd, sender, texts, args))
    ensures (|args| > 0 && GetSubCmd(cmd, sender, args[0]).Some? && GetSubCmd(cmd, sender, args[0]).value.Registered? &&
             Admitted(sender, GetSubCmd(cmd, sender, args[0]).value)) ==> r == Ran(GetSubCmd(cmd, sender, args[0]).value.sub, args)
    ensures r.LackPermissionMessage? <==> OnCommand(cmd, sender, args).LackPermission?
    ensures r.LackPermissionMessage? ==> r.permission == OnCommand(cmd, sender, args).permission
    ensures r.PlayerOnlyMessage? <==> OnCommand(cmd, sender, args) == PlayerOnly
    ensures r.NoItemMessage? <==> OnCommand(cmd, sender, args) == NoItem
  {
    match OnCommand(cmd, sender, args)
    case ShowHelp(page) => Shown(FallbackHelp(cmd, sender, texts, page))
    case LackPermission(p) => LackPermissionMessage(p)
    case PlayerOnly => PlayerOnlyMessage
    case NoItem => NoItemMessage
    case Execute(e) => if e.Help? then Shown(HelpOnCommand(cmd, sender, texts, args)) else Ran(e.sub, args)
  }

  /** `/<alias> help <n>` for any page `n` in range shows exactly page `n`, provided no
      registered sub-command takes the name "help". */
  lemma HelpPageLands(cmd: Command, sender: Sender, texts: HelpTexts, target: int)
    requires Valid(cmd) && cmd.help.Some? && NoMatch(cmd.subs, HelpName)
    requires |cmd.subs| < IntMax
    requires 1 <= target <= PageCount(cmd, sender)
    ensures Invoke(cmd, sender, texts, [HelpName, IntToString(target)]) == Shown(HelpPage(cmd, sender, texts, target))
    ensures HelpPage(cmd, sender, texts, target).Page?
    ensures HelpPage(cmd, sender, texts, target).page == target
  {
    HelpNameResolves(cmd, sender);
    PageCountFits(cmd, sender);
    ParseIntRoundTrip(target);
  }

  /** With something registered and no sub-command named "help", the name resolves to the
      help pseudo-command. */
  lemma HelpNameResolves(cmd: Command, sender: Sender)
    requires Valid(cmd) && cmd.help.Some? && NoMatch(cmd.subs, HelpName) && |cmd.subs| > 0
    ensures GetSubCmd(cmd, sender, HelpName) == Some(Help(cmd.help.value.sub))
  {
    assert Matches(cmd.help.value.sub, HelpName);
    AllowedEmptyIffNothingRegistered(cmd, sender);
  }

  /** Every page number of the help fits a Java `int`. */
  lemma PageCountFits(cmd: Command, sender: Sender)
    requires cmd.help.Some? && |cmd.subs| < IntMax
    ensures PageCount(cmd, sender) <= IntMax
  {
    var allowed := AllowedSubCommands(cmd, sender);
    assert |allowed| <= |cmd.subs| + 1 by {
      SubsequenceShorter(Permitted(cmd, sender), cmd.subs);
    }
    MaxPageAtMostSize(|allowed|, cmd.help.value.perPage);
  }

  /** Clicking an active navigation control of a rendered help page re-runs
      `/<alias> help <target>`, and that invocation shows exactly page `target`, provided no
      registered sub-command takes the name "help". */
  lemma NavigationLands(cmd: Command, sender: Sender, texts: HelpTexts, page: int, seg: Segment)
    requires Valid(cmd) && cmd.help.Some? && NoMatch(cmd.subs, HelpName)
    requires |cmd.subs| < IntMax
    requires 1 <= page <= PageCount(cmd, sender)
    requires seg in InjectClickablePages(texts.header, page, PageCount(cmd, sender))
    requires seg.NextActive? || seg.PrevActive?
    ensures Invoke(cmd, sender, texts, [HelpName, IntToString(seg.target)]) == Shown(HelpPage(cmd, sender, texts, seg.target))
    ensures HelpPage(cmd, sender, texts, seg.target).Page?
    ensures HelpPage(cmd, sender, texts, seg.target).page == seg.target
  {
    assert 1 <= seg.target <= PageCount(cmd, sender);
    HelpPageLands(cmd, sender, texts, seg.target);
  }
}

=== FILE: help.dfy ===
/** The built-in `HelpSubCommand`: paginated help pages and its argument handling. */
module HelpCommand {
  import opened Options
  import opened Numbers
  import opened Paging
  import opened Registry
  import opened Markers

  /** The sender's language strings for the page header and footer templates. */
  datatype HelpTexts = HelpTexts(header: string, footer: string)

  /** What a help request shows. */
  datatype HelpView =
      /** the generic "no permission to use this command" message */
    | GenericDenied
      /** single-page help: the header, then the help block of each listed sub-command */
    | Listing(subs: seq<SubCmd>)
      /** one page of paginated help, its header and footer already turned into segments */
    | Page(page: int, maxPage: int, header: seq<Segment>, entries: seq<Entry>, footer: seq<Segment>)
      /** the dedicated help of one sub-command: name, usage line and description */
    | SubHelp(entry: Entry)

  /** `getMaxPageFor(getAllowedSubCommands(sender).size())`. */
  function PageCount(cmd: Command, sender: Sender): (r: nat)
    requires cmd.help.Some?
    ensures r == 0 <==> |cmd.subs| == 0
    ensures r <= |AllowedSubCommands(cmd, sender)|
  {
    AllowedEmptyIffNothingRegistered(cmd, sender);
    MaxPageAtMostSize(|AllowedSubCommands(cmd, sender)|, cmd.help.value.perPage);
    MaxPageFor(|AllowedSubCommands(cmd, sender)|, cmd.help.value.perPage)
  }

  /** One page of a non-empty allowed view: the page clamped into `[1, maxPage]`, its slice,
      and the header and footer templates rendered for that page. */
  function RenderPage(allowed: seq<Entry>, perPage: PerPage, texts: HelpTexts, page: int): (r: HelpView)
    requires |allowed| > 0
    ensures r.Page? && r.maxPage == MaxPageFor(|allowed|, perPage) && 1 <= r.page <= r.maxPage
    ensures 1 <= page <= r.maxPage ==> r.page == page
    ensures r.page == ClampPage(page, r.maxPage)
    ensures 0 < |r.entries| <= perPage
    ensures |r.entries| == perPage || PageStart(perPage, r.page) + |r.entries| == |allowed|
    ensures r.entries == PageSlice(allowed, perPage, r.page)
    ensures 0 <= PageStart(perPage, r.page) && PageStart(perPage, r.page) + |r.entries| <= |allowed|
    ensures forall i :: 0 <= i < |r.entries| ==> r.entries[i] == allowed[PageStart(perPage, r.page) + i]
    ensures r.header == InjectClickablePages(texts.header, r.page, r.maxPage)
    ensures r.footer == InjectClickablePages(texts.footer, r.page, r.maxPage)
  {
    var maxPage := MaxPageFor(|allowed|, perPage);
    var p := ClampPage(page, maxPage);
    var slice := PageSlice(allowed, perPage, p);
    Page(p, maxPage, InjectClickablePages(texts.header, p, maxPage), slice,
         InjectClickablePages(texts.footer, p, maxPage))
  }

  /** `help(sender, alias, page)`: the generic denial for an empty allowed view, otherwise the
      requested page of it. */
  function HelpPage(cmd: Command, sender: Sender, texts: HelpTexts, page: int): (r: HelpView)
    requires cmd.help.Some?
    ensures r.GenericDenied? <==> |cmd.subs| == 0
    ensures r.Page? <==> |cmd.subs| > 0
    ensures r.Page? ==> r == RenderPage(AllowedSubCommands(cmd, sender), cmd.help.value.perPage, texts, page)
  {
    var allowed := AllowedSubCommands(cmd, sender);
    AllowedEmptyIffNothingRegistered(cmd, sender);
    if |allowed| == 0 then GenericDenied
    else RenderPage(allowed, cmd.help.value.perPage, texts, page)
  }

  /** Asking for an out-of-range page shows exactly the page it is clamped to. */
  lemma ClampedPageSameView(cmd: Command, sender: Sender, texts: HelpTexts, page: int)
    requires cmd.help.Some?
    ensures HelpPage(cmd, sender, texts, page) == HelpPage(cmd, sender, texts, ClampPage(page, PageCount(cmd, sender)))
  {
    ClampIdempotent(page, PageCount(cmd, sender));
  }

  /** `HelpSubCommand.onCommand`: the second argument is a page number if it parses as an
      integer, else the name of a sub-command to describe; otherwise page 1. */
  function HelpOnCommand(cmd: Command, sender: Sender, texts: HelpTexts, args: seq<string>): (r: HelpView)
    requires cmd.help.Some?
    ensures r.SubHelp? <==> |args| > 1 && ParseInt(args[1]).None? && GetSubCmd(cmd, sender, args[1]).Some?
    ensures r.SubHelp? ==> GetSubCmd(cmd, sender, args[1]) == Some(r.entry)
    ensures |args| > 1 && ParseInt(args[1]).Some? ==> r == HelpPage(cmd, sender, texts, ParseInt(args[1]).value)
    ensures |args| <= 1 ==> r == HelpPage(cmd, sender, texts, 1)
    ensures |args| > 1 && ParseInt(args[1]).None? && GetSubCmd(cmd, sender, args[1]).None? ==>
              r == HelpPage(cmd, sender, texts, 1)
  {
    if |args| > 1 then
      match ParseInt(args[1])
      case Some(page) => HelpPage(cmd, sender, texts, page)
      case None =>
        match GetSubCmd(cmd, sender, args[1])
        case Some(entry) => SubHelp(entry)
        case None => HelpPage(cmd, sender, texts, 1)
    else HelpPage(cmd, sender, texts, 1)
  }
}

=== FILE: markers.dfy ===
/** `injectClickablePages`: the help header and footer templates, with their page numbers
    filled in and their navigation markers turned into clickable controls. */
module Markers {
  import opened Options
  import opened Strings
  import opened Numbers

  const PagePlaceholder: string := "%page%"
  const MaxPagePlaceholder: string := "%max_page%"
  const PrevMarker: string := "%prev_clickable%"
  const NextMarker: string := "%next_clickable%"

  /** One run of the rendered template: plain text, or a navigation control. An active control
      re-runs the help command at `target`; a void one is inert. Colours, formatting retention,
      click and hover payloads are rendering details left to the host. */
  datatype Segment =
    | Text(s: string)
    | NextActive(target: int)
    | NextVoid
    | PrevActive(target: int)
    | PrevVoid

  predicate IsNext(seg: Segment)
  {
    seg.NextActive? || seg.NextVoid?
  }

  predicate IsPrev(seg: Segment)
  {
    seg.PrevActive? || seg.PrevVoid?
  }

  /** Both placeholders replaced everywhere, `%page%` first. */
  function Substitute(text: string, page: int, maxPage: int): (r: string)
    ensures (forall j :: !Occurs(text, PagePlaceholder, j) && !Occurs(text, MaxPagePlaceholder, j)) ==> r == text
  {
    var once := ReplaceAll(text, PagePlaceholder, IntToString(page));
    var r := ReplaceAll(once, MaxPagePlaceholder, IntToString(maxPage));
    assert (forall j :: !Occurs(text, PagePlaceholder, j) && !Occurs(text, MaxPagePlaceholder, j)) ==> r == text by {
      if forall j :: !Occurs(text, PagePlaceholder, j) && !Occurs(text, MaxPagePlaceholder, j) {
        ReplaceAbsent(text, PagePlaceholder, IntToString(page));
        ReplaceAbsent(once, MaxPagePlaceholder, IntToString(maxPage));
      }
    }
    r
  }

  /** The "next page" control: active towards `page + 1` while there is a later page. */
  function NextControl(page: int, maxPage: int): (r: Segment)
    ensures IsNext(r)
    ensures r.NextActive? <==> page < maxPage
    ensures r.NextActive? ==> r.target == page + 1
  {
    if page < maxPage then NextActive(page + 1) else NextVoid
  }

  /** The "previous page" control: active towards `page - 1` after the first page. */
  function PrevControl(page: int): (r: Segment)
    ensures IsPrev(r)
    ensures r.PrevActive? <==> page > 1
    ensures r.PrevActive? ==> r.target == page - 1
  {
    if page > 1 then PrevActive(page - 1) else PrevVoid
  }

  /** A segment that `injectClickablePages` may emit on page `page` of `maxPage`. */
  predicate Emittable(seg: Segment, page: int, maxPage: int)
  {
    seg.Text? || seg == NextControl(page, maxPage) || seg == PrevControl(page)
  }

  /** A control points where it should: next towards `page + 1` only before the last page,
      previous towards `page - 1` only after the first. */
  predicate ControlAgrees(seg: Segment, page: int, maxPage: int)
  {
    && (seg.NextActive? ==> page < maxPage && seg.target == page + 1)
    && (seg.NextVoid? ==> page >= maxPage)
    && (seg.PrevActive? ==> page > 1 && seg.target == page - 1)
    && (seg.PrevVoid? ==> page <= 1)
  }

  lemma EmittableAgrees(seg: Segment, page: int, maxPage: int)
    requires Emittable(seg, page, maxPage)
    ensures ControlAgrees(seg, page, maxPage)
  {
  }

  /** A region of the template: its text up to the first next marker, then, if the marker
      occurs, a next control and the text after it. */
  function Region(split: Split, page: int, maxPage: int): (r: seq<Segment>)
    ensures 0 < |r| && r[0] == Text(split.head)
    ensures forall i :: 0 <= i < |r| ==> r[i].Text? || r[i] == NextControl(page, maxPage)
  {
    if split.rest.Some? then [Text(split.head), NextControl(page, maxPage), Text(split.rest.value)]
    else [Text(split.head)]
  }

  /** The segments of an already substituted template `t`: split at the first previous
      marker; split the part before it, and the part after it, each at its own first next
      marker. */
  function Layout(t: string, page: int, maxPage: int): (r: seq<Segment>)
    ensures 0 < |r| <= 7
    ensures (forall j :: !Occurs(t, PrevMarker, j) && !Occurs(t, NextMarker, j)) ==> r == [Text(t)]
  {
    var outer := SplitFirst(t, PrevMarker);
    var front := Region(SplitFirst(outer.head, NextMarker), page, maxPage);
    if outer.rest.Some? then front + [PrevControl(page)] + Region(SplitFirst(outer.rest.value, NextMarker), page, maxPage)
    else front
  }

  /** Every segment of a layout is text or the control the page calls for. */
  lemma LayoutEmittable(t: string, page: int, maxPage: int)
    ensures |Layout(t, page, maxPage)| > 0 && Layout(t, page, maxPage)[0].Text?
    ensures forall i :: 0 <= i < |Layout(t, page, maxPage)| ==> Emittable(Layout(t, page, maxPage)[i], page, maxPage)
  {
    var outer := SplitFirst(t, PrevMarker);
    var front := Region(SplitFirst(outer.head, NextMarker), page, maxPage);
    if outer.rest.Some? {
      var back := Region(SplitFirst(outer.rest.value, NextMarker), page, maxPage);
      var r := front + [PrevControl(page)] + back;
      forall i | 0 <= i < |r| ensures Emittable(r[i], page, maxPage) {
        if i < |front| {
          assert r[i] == front[i];
        } else if i > |front| {
          assert r[i] == back[i - |front| - 1];
        }
      }
    }
  }

  /** `injectClickablePages`: placeholders first, then the marker split. */
  function InjectClickablePages(text: string, page: int, maxPage: int): (r: seq<Segment>)
    ensures |r| > 0 && r[0].Text?
    ensures forall i :: 0 <= i < |r| && r[i].NextActive? ==> page < maxPage && r[i].target == page + 1
    ensures forall i :: 0 <= i < |r| && r[i].NextVoid? ==> page >= maxPage
    ensures forall i :: 0 <= i < |r| && r[i].PrevActive? ==> page > 1 && r[i].target == page - 1
    ensures forall i :: 0 <= i < |r| && r[i].PrevVoid? ==> page <= 1
  {
    var r := Layout(Substitute(text, page, maxPage), page, maxPage);
    LayoutEmittable(Substitute(text, page, maxPage), page, maxPage);
    forall i | 0 <= i < |r| ensures ControlAgrees(r[i], page, maxPage) {
      EmittableAgrees(r[i], page, maxPage);
    }
    r
  }

  /** The text a segment stands for: controls become the marker they replaced. */
  function Render(seg: Segment): string
  {
    match seg
    case Text(s) => s
    case NextActive(_) => NextMarker
    case NextVoid => NextMarker
    case PrevActive(_) => PrevMarker
    case PrevVoid => PrevMarker
  }

  function Flatten(segs: seq<Segment>): string
  {
    if segs == [] then [] else Render(segs[0]) + Flatten(segs[1..])
  }

  lemma {:induction false} FlattenAppend(a: seq<Segment>, b: seq<Segment>)
    ensures Flatten(a + b) == Flatten(a) + Flatten(b)
    decreases |a|
  {
    if a != [] {
      assert (a + b)[1..] == a[1..] + b;
      FlattenAppend(a[1..], b);
    } else {
      assert a + b == b;
    }
  }

  lemma FlattenSingle(seg: Segment)
    ensures Flatten([seg]) == Render(seg)
  {
    assert [seg][1..] == [];
  }

  /** A region renders back to the text it was cut from. */
  lemma RegionRoundTrip(s: string, page: int, maxPage: int)
    ensures Flatten(Region(SplitFirst(s, NextMarker), page, maxPage)) == s
  {
    var split := SplitFirst(s, NextMarker);
    FlattenSingle(Text(split.head));
    if split.rest.Some? {
      var tail := split.rest.value;
      var next := NextControl(page, maxPage);
      assert Region(split, page, maxPage) == [Text(split.head)] + ([next] + [Text(tail)]);
      FlattenAppend([Text(split.head)], [next] + [Text(tail)]);
      FlattenAppend([next], [Text(tail)]);
      FlattenSingle(next);
      FlattenSingle(Text(tail));
    }
  }

  /** The marker split of a template loses and invents nothing. */
  lemma LayoutRoundTrip(t: string, page: int, maxPage: int)
    ensures Flatten(Layout(t, page, maxPage)) == t
  {
    var outer := SplitFirst(t, PrevMarker);
    var front := Region(SplitFirst(outer.head, NextMarker), page, maxPage);
    RegionRoundTrip(outer.head, page, maxPage);
    if outer.rest.None? {
      assert Layout(t, page, maxPage) == front;
    } else {
      var after := outer.rest.value;
      var back := Region(SplitFirst(after, NextMarker), page, maxPage);
      RegionRoundTrip(after, page, maxPage);
      assert Layout(t, page, maxPage) == front + [PrevControl(page)] + back;
      FlattenAppend(front + [PrevControl(page)], back);
      FlattenAppend(front, [PrevControl(page)]);
      FlattenSingle(PrevControl(page));
    }
  }

  /** Putting each marker back in place of its control and joining the segments gives the
      template with its placeholders substituted: the split loses and invents nothing. */
  lemma InjectRoundTrip(text: string, page: int, maxPage: int)
    ensures Flatten(InjectClickablePages(text, page, maxPage)) == Substitute(text, page, maxPage)
  {
    LayoutRoundTrip(Substitute(text, page, maxPage), page, maxPage);
  }

  /** Every next control directly follows text free of the next marker: the control stands
      for the first next marker of its region, not a later one. */
  predicate CutAtFirstNext(segs: seq<Segment>)
  {
    forall i :: 0 <= i < |segs| - 1 && segs[i].Text? && IsNext(segs[i + 1]) ==> NoNextMarker(segs[i].s)
  }

  predicate NoNextMarker(s: string)
  {
    forall j :: 0 <= j < |s| ==> !Occurs(s, NextMarker, j)
  }

  lemma RegionFirstNext(x: string, page: int, maxPage: int)
    ensures CutAtFirstNext(Region(SplitFirst(x, NextMarker), page, maxPage))
  {
    SplitHeadClean(x, NextMarker);
  }

  lemma RegionNoPrev(x: string, page: int, maxPage: int)
    ensures forall i :: 0 <= i < |Region(SplitFirst(x, NextMarker), page, maxPage)| ==>
              !IsPrev(Region(SplitFirst(x, NextMarker), page, maxPage)[i])
  {
  }

  /** The previous control stands for the first `%prev_clickable%`: everything in front of
      it renders to the text before that occurrence. */
  lemma LayoutPrevPlacement(t: string, page: int, maxPage: int)
    ensures forall k :: 0 <= k < |Layout(t, page, maxPage)| && IsPrev(Layout(t, page, maxPage)[k]) ==>
              IndexOf(t, PrevMarker).Some? &&
              Flatten(Layout(t, page, maxPage)[..k]) == t[..IndexOf(t, PrevMarker).value]
  {
    var outer := SplitFirst(t, PrevMarker);
    var front := Region(SplitFirst(outer.head, NextMarker), page, maxPage);
    RegionNoPrev(outer.head, page, maxPage);
    if outer.rest.Some? {
      var back := Region(SplitFirst(outer.rest.value, NextMarker), page, maxPage);
      var r := front + [PrevControl(page)] + back;
      RegionNoPrev(outer.rest.value, page, maxPage);
      forall k | 0 <= k < |r| && k != |front| ensures !IsPrev(r[k]) {
        if k < |front| {
          assert r[k] == front[k];
        } else {
          assert r[k] == back[k - |front| - 1];
        }
      }
      RegionRoundTrip(outer.head, page, maxPage);
      SplitHeadIsPrefix(t, PrevMarker);
      assert r[..|front|] == front;
    }
  }

  /** Each next control stands for the first `%next_clickable%` of its region: the text
      directly in front of it holds no next marker. */
  lemma LayoutNextPlacement(t: string, page: int, maxPage: int)
    ensures CutAtFirstNext(Layout(t, page, maxPage))
  {
    var outer := SplitFirst(t, PrevMarker);
    var front := Region(SplitFirst(outer.head, NextMarker), page, maxPage);
    RegionFirstNext(outer.head, page, maxPage);
    if outer.rest.Some? {
      var back := Region(SplitFirst(outer.rest.value, NextMarker), page, maxPage);
      var r := front + [PrevControl(page)] + back;
      RegionFirstNext(outer.rest.value, page, maxPage);
      forall i | 0 <= i < |r| - 1 && r[i].Text? && IsNext(r[i + 1]) ensures NoNextMarker(r[i].s) {
        if i + 1 < |front| {
          assert r[i] == front[i] && r[i + 1] == front[i + 1];
        } else if i > |front| {
          assert r[i] == back[i - |front| - 1] && r[i + 1] == back[i - |front|];
        }
      }
    }
  }

  /** Number of segments satisfying `p`. */
  function Count(segs: seq<Segment>, p: Segment -> bool): nat
  {
    if segs == [] then 0 else (if p(segs[0]) then 1 else 0) + Count(segs[1..], p)
  }

  lemma {:induction false} CountAppend(a: seq<Segment>, b: seq<Segment>, p: Segment -> bool)
    ensures Count(a + b, p) == Count(a, p) + Count(b, p)
    decreases |a|
  {
    if a != [] {
      assert (a + b)[1..] == a[1..] + b;
      CountAppend(a[1..], b, p);
    } else {
      assert a + b == b;
    }
  }

  lemma CountSingle(seg: Segment, p: Segment -> bool)
    ensures Count([seg], p) == if p(seg) then 1 else 0
  {
    assert [seg][1..] == [];
  }

  /** A region holds no previous control, and one next control exactly when the marker occurs. */
  lemma RegionCounts(s: string, page: int, maxPage: int)
    ensures Count(Region(SplitFirst(s, NextMarker), page, maxPage), IsPrev) == 0
    ensures Count(Region(SplitFirst(s, NextMarker), page, maxPage), IsNext) <= 1
    ensures Count(Region(SplitFirst(s, NextMarker), page, maxPage), IsNext) == 1
            <==> exists j :: Occurs(s, NextMarker, j)
  {
    var split := SplitFirst(s, NextMarker);
    var head := Text(split.head);
    CountSingle(head, IsPrev);
    CountSingle(head, IsNext);
    if split.rest.Some? {
      var tail := Text(split.rest.value);
      var next := NextControl(page, maxPage);
      assert Region(split, page, maxPage) == [head] + ([next] + [tail]);
      CountAppend([head], [next] + [tail], IsPrev);
      CountAppend([next], [tail], IsPrev);
      CountAppend([head], [next] + [tail], IsNext);
      CountAppend([next], [tail], IsNext);
      CountSingle(next, IsPrev);
      CountSingle(next, IsNext);
      CountSingle(tail, IsPrev);
      CountSingle(tail, IsNext);
    }
  }

  /** An occurrence inside either side of a split is an occurrence in the whole string. */
  lemma OccursAcross(s: string, head: string, m: string, after: string, n: string)
    requires s == head + m + after
    ensures (exists j :: Occurs(head, n, j)) ==> exists j :: Occurs(s, n, j)
    ensures (exists j :: Occurs(after, n, j)) ==> exists j :: Occurs(s, n, j)
  {
    if exists j :: Occurs(head, n, j) {
      var j :| Occurs(head, n, j);
      assert s[j..j + |n|] == head[j..j + |n|];
      assert Occurs(s, n, j);
    }
    if exists j :: Occurs(after, n, j) {
      var j :| Occurs(after, n, j);
      var k := |head| + |m| + j;
      assert after == s[|head| + |m|..];
      assert s[k..k + |n|] == after[j..j + |n|];
      assert Occurs(s, n, k);
    }
  }

  /** Control counts of the marker split of `t`. */
  lemma LayoutCounts(t: string, page: int, maxPage: int)
    ensures Count(Layout(t, page, maxPage), IsPrev) <= 1
    ensures Count(Layout(t, page, maxPage), IsPrev) == 1 <==> exists j :: Occurs(t, PrevMarker, j)
    ensures Count(Layout(t, page, maxPage), IsNext) <= 2
    ensures Count(Layout(t, page, maxPage), IsNext) > 0 ==> exists j :: Occurs(t, NextMarker, j)
  {
    var outer := SplitFirst(t, PrevMarker);
    var front := Region(SplitFirst(outer.head, NextMarker), page, maxPage);
    RegionCounts(outer.head, page, maxPage);
    if outer.rest.Some? {
      var after := outer.rest.value;
      var back := Region(SplitFirst(after, NextMarker), page, maxPage);
      var prev := PrevControl(page);
      RegionCounts(after, page, maxPage);
      CountAppend(front + [prev], back, IsPrev);
      CountAppend(front, [prev], IsPrev);
      CountAppend(front + [prev], back, IsNext);
      CountAppend(front, [prev], IsNext);
      CountSingle(prev, IsPrev);
      CountSingle(prev, IsNext);
      OccursAcross(t, outer.head, PrevMarker, after, NextMarker);
      assert Occurs(t, PrevMarker, |outer.head|);
    }
  }

  /** Exactly one next control for each part of the split (before and after the first
      previous marker) that holds the next marker. */
  lemma LayoutNextCount(t: string, page: int, maxPage: int)
    ensures var outer := SplitFirst(t, PrevMarker);
      Count(Layout(t, page, maxPage), IsNext)
        == (if exists j :: Occurs(outer.head, NextMarker, j) then 1 else 0)
         + (if outer.rest.Some? && exists j :: Occurs(outer.rest.value, NextMarker, j) then 1 else 0)
  {
    var outer := SplitFirst(t, PrevMarker);
    var front := Region(SplitFirst(outer.head, NextMarker), page, maxPage);
    RegionCounts(outer.head, page, maxPage);
    if outer.rest.Some? {
      var after := outer.rest.value;
      var back := Region(SplitFirst(after, NextMarker), page, maxPage);
      var prev := PrevControl(page);
      RegionCounts(after, page, maxPage);
      assert Layout(t, page, maxPage) == front + [prev] + back;
      CountAppend(front + [prev], back, IsNext);
      CountAppend(front, [prev], IsNext);
      CountSingle(prev, IsNext);
    } else {
      assert Layout(t, page, maxPage) == front;
    }
  }

  /** At most one previous control, present exactly when the substituted template holds the
      previous marker; at most two next controls, and only when it holds the next marker. */
  lemma InjectControlCounts(text: string, page: int, maxPage: int)
    ensures Count(InjectClickablePages(text, page, maxPage), IsPrev) <= 1
    ensures Count(InjectClickablePages(text, page, maxPage), IsPrev) == 1
            <==> exists j :: Occurs(Substitute(text, page, maxPage), PrevMarker, j)
    ensures Count(InjectClickablePages(text, page, maxPage), IsNext) <= 2
    ensures Count(InjectClickablePages(text, page, maxPage), IsNext) > 0
            ==> exists j :: Occurs(Substitute(text, page, maxPage), NextMarker, j)
  {
    LayoutCounts(Substitute(text, page, maxPage), page, maxPage);
  }

  /** Why the next-marker half of the counts is one-directional: a next marker that shares
      its leading `%` with the end of the previous marker is cut apart by the first split and
      yields no control. */
  lemma SharedPercentHidesNext(page: int, maxPage: int)
    ensures Occurs("%prev_clickable%next_clickable%", NextMarker, 15)
    ensures Count(Layout("%prev_clickable%next_clickable%", page, maxPage), IsNext) == 0
  {
    var t := "%prev_clickable%next_clickable%";
    assert t[15..31] == NextMarker;
    assert t[0..16] == PrevMarker;
    assert IndexOf(t, PrevMarker) == Some(0);
    var outer := SplitFirst(t, PrevMarker);
    assert outer.head == [] && outer.rest == Some(t[16..]);
    var front := Region(SplitFirst(outer.head, NextMarker), page, maxPage);
    var back := Region(SplitFirst(t[16..], NextMarker), page, maxPage);
    assert front == [Text([])];
    assert back == [Text(t[16..])];
    var prev := PrevControl(page);
    CountAppend(front + [prev], back, IsNext);
    CountAppend(front, [prev], IsNext);
    CountSingle(prev, IsNext);
    CountSingle(Text([]), IsNext);
    CountSingle(Text(t[16..]), IsNext);
  }

  /** A previous marker appended to a text that cannot hold its second character (except at
      the front) is found where it was appended. */
  lemma PrevFoundAfter(a: string)
    requires forall k :: 1 <= k < |a| ==> a[k] != PrevMarker[1]
    ensures IndexOf(a + PrevMarker, PrevMarker) == Some(|a|)
  {
    var t := a + PrevMarker;
    forall j | 0 <= j < |a| ensures !Occurs(t, PrevMarker, j) {
      assert t[j + 1] != PrevMarker[1] by {
        if j + 1 < |a| { assert t[j + 1] == a[j + 1]; } else { assert t[j + 1] == PrevMarker[0]; }
      }
      assert t[j..j + 16][1] == t[j + 1];
    }
    assert t[|a|..|a| + 16] == PrevMarker;
    assert Occurs(t, PrevMarker, |a|);
    var r := IndexOf(t, PrevMarker);
    assert r.Some?;
    assert r.value >= |a|;
  }

  lemma FirstPrevAfterNext()
    ensures IndexOf("%next_clickable%prev_clickable%", PrevMarker) == Some(15)
  {
    var a := "%next_clickable";
    assert forall k :: 1 <= k < |a| ==> a[k] != PrevMarker[1];
    assert a + PrevMarker == "%next_clickable%prev_clickable%";
    PrevFoundAfter(a);
  }

  /** When the first previous marker starts too early for a next marker to fit in front of it
      and ends the text, the layout is that short text, the previous control, and nothing. */
  lemma ShortFrontLayout(t: string, page: int, maxPage: int)
    requires IndexOf(t, PrevMarker).Some?
    requires IndexOf(t, PrevMarker).value < |NextMarker|
    requires |t| == IndexOf(t, PrevMarker).value + |PrevMarker|
    ensures Layout(t, page, maxPage) == [Text(t[..IndexOf(t, PrevMarker).value]), PrevControl(page), Text([])]
  {
    var k := IndexOf(t, PrevMarker).value;
    var outer := SplitFirst(t, PrevMarker);
    assert outer.head == t[..k] && outer.rest == Some([]);
    var front := Region(SplitFirst(t[..k], NextMarker), page, maxPage);
    var back := Region(SplitFirst([], NextMarker), page, maxPage);
    assert front == [Text(t[..k])];
    assert back == [Text([])];
    assert Layout(t, page, maxPage) == front + [PrevControl(page)] + back;
  }

  /** The converse overlap: a next marker whose closing `%` opens the previous marker is cut by
      the previous-marker split, and its first fifteen characters are shown as literal text. */
  lemma SharedPercentHidesNextBeforePrev(page: int, maxPage: int)
    ensures Occurs("%next_clickable%prev_clickable%", NextMarker, 0)
    ensures IndexOf("%next_clickable%prev_clickable%", PrevMarker) == Some(15)
    ensures Layout("%next_clickable%prev_clickable%", page, maxPage)[0] == Text("%next_clickable")
    ensures Count(Layout("%next_clickable%prev_clickable%", page, maxPage), IsNext) == 0
  {
    var t := "%next_clickable%prev_clickable%";
    assert t[0..16] == NextMarker;
    FirstPrevAfterNext();
    ShortFrontLayout(t, page, maxPage);
    assert t[..15] == "%next_clickable";
    var prev := PrevControl(page);
    var l := [Text(t[..15]), prev, Text([])];
    assert l == [Text(t[..15])] + [prev] + [Text([])];
    CountAppend([Text(t[..15])] + [prev], [Text([])], IsNext);
    CountAppend([Text(t[..15])], [prev], IsNext);
    CountSingle(prev, IsNext);
    CountSingle(Text(t[..15]), IsNext);
    CountSingle(Text([]), IsNext);
  }
}

=== FILE: numbers.dfy ===
/** Java 32-bit integers as they travel through text: `String.valueOf(int)` and
    `Integer.parseInt(String)`. */
module Numbers {
  import opened Options

  const IntMin: int := -0x8000_0000
  const IntMax: int := 0x7fff_ffff

  predicate IsDigit(c: char)
  {
    '0' <= c <= '9'
  }

  predicate AllDigits(s: string)
  {
    forall i :: 0 <= i < |s| ==> IsDigit(s[i])
  }

  function DigitChar(d: nat): char
    requires d < 10
  {
    ('0' as int + d) as char
  }

  function DigitValue(c: char): nat
    requires IsDigit(c)
  {
    c as int - '0' as int
  }

  /** Decimal digits of `n`, most significant first, without leading zeros. */
  function NatToString(n: nat): (r: string)
    ensures |r| > 0 && AllDigits(r)
    ensures r[0] == '0' <==> n == 0
    ensures |r| > 1 ==> r[0] != '0'
    decreases n
  {
    if n < 10 then [DigitChar(n)] else NatToString(n / 10) + [DigitChar(n % 10)]
  }

  /** `String.valueOf(int)`: a minus sign in front of the magnitude for negative values. */
  function IntToString(i: int): (r: string)
    ensures |r| > 0
    ensures r[0] == '-' <==> i < 0
    ensures i >= 0 ==> AllDigits(r)
    ensures var m := if i < 0 then r[1..] else r; |m| > 0 && AllDigits(m) && (m[0] == '0' ==> m == "0")
  {
    if i < 0 then "-" + NatToString(-i) else NatToString(i)
  }

  /** Value of a run of decimal digits, read most significant first. */
  function DigitsValue(s: string): nat
    requires AllDigits(s)
    decreases |s|
  {
    if s == [] then 0 else DigitsValue(s[..|s| - 1]) * 10 + DigitValue(s[|s| - 1])
  }

  /** `Integer.parseInt(s)`: an optional sign, then at least one decimal digit, and a value
      inside the 32-bit range; anything else is the NumberFormatException, here `None`. */
  function ParseInt(s: string): (r: Option<int>)
    ensures r.Some? ==> IntMin <= r.value <= IntMax
    ensures r.Some? ==> |s| > 0 && (r.value < 0 ==> s[0] == '-')
    ensures r.Some? ==> forall i :: 1 <= i < |s| ==> IsDigit(s[i])
    ensures r.Some? ==> (s[0] == '-' || s[0] == '+' || IsDigit(s[0])) && IsDigit(s[|s| - 1])
    ensures |s| == 0 ==> r.None?
    ensures 0 < |s| && AllDigits(s) ==>
              r == if DigitsValue(s) <= IntMax then Some(DigitsValue(s)) else None
    ensures 1 < |s| && s[0] == '+' && AllDigits(s[1..]) ==>
              r == if DigitsValue(s[1..]) <= IntMax then Some(DigitsValue(s[1..])) else None
    ensures 1 < |s| && s[0] == '-' && AllDigits(s[1..]) ==>
              r == if DigitsValue(s[1..]) <= -IntMin then Some(-(DigitsValue(s[1..]) as int)) else None
  {
    if |s| == 0 then None
    else
      var signed := s[0] == '-' || s[0] == '+';
      var digits := if signed then s[1..] else s;
      if |digits| == 0 || !AllDigits(digits) then None
      else
        var magnitude: int := DigitsValue(digits);
        var v: int := if s[0] == '-' then -magnitude else magnitude;
        if IntMin <= v <= IntMax then Some(v) else None
  }

  lemma {:induction false} NatToStringValue(n: nat)
    ensures DigitsValue(NatToString(n)) == n
  {
    if n >= 10 {
      var s := NatToString(n);
      NatToStringValue(n / 10);
      assert s[..|s| - 1] == NatToString(n / 10);
    }
  }

  /** Printing a 32-bit integer and parsing it back gives the same integer. */
  lemma ParseIntRoundTrip(i: int)
    requires IntMin <= i <= IntMax
    ensures ParseInt(IntToString(i)) == Some(i)
  {
    var s := IntToString(i);
    if i < 0 {
      NatToStringValue(-i);
      assert s[1..] == NatToString(-i);
      assert 1 < |s| && s[0] == '-' && AllDigits(s[1..]);
      assert DigitsValue(s[1..]) == -i;
    } else {
      NatToStringValue(i);
      assert 0 < |s| && AllDigits(s) && DigitsValue(s) == i;
    }
  }
}

=== FILE: options.dfy ===
/** The optional value that stands for a Java `null` result or a swallowed exception. */
module Options {

  datatype Option<+T> = None | Some(value: T)
}

=== FILE: paging.dfy ===
/** Page arithmetic of the paginated help: page count, clamping and the page slice. */
module Paging {

  /** `commandPerPage` is never configured below four entries per page. */
  type PerPage = n: int | 4 <= n witness 4

  /** `Math.max(4, configured)`: the page size read from the configuration. */
  function PerPageFrom(configured: int): (r: PerPage)
    ensures r >= configured
    ensures r == 4 || r == configured
  {
    if configured < 4 then 4 else configured
  }

  /** `getMaxPageFor`: the number of pages needed for `n` entries. */
  function MaxPageFor(n: nat, perPage: PerPage): (r: nat)
    ensures r == 0 <==> n == 0
    ensures n > 0 ==> (r - 1) * perPage < n <= r * perPage
  {
    var q := n / perPage;
    var m := n % perPage;
    assert n == q * perPage + m;
    var r := q + (if m == 0 then 0 else 1);
    assert r * perPage == q * perPage + (if m == 0 then 0 else perPage);
    r
  }

  /** `Math.max(1, Math.min(maxPage, page))`. */
  function ClampPage(page: int, maxPage: int): (r: int)
    ensures maxPage >= 1 ==> 1 <= r <= maxPage
    ensures 1 <= page <= maxPage ==> r == page
    ensures page < 1 ==> r == 1
    ensures 1 <= maxPage < page ==> r == maxPage
    ensures maxPage < 1 ==> r == 1
  {
    var upper := if maxPage < page then maxPage else page;
    if upper < 1 then 1 else upper
  }

  /** Clamping twice is clamping once. */
  lemma ClampIdempotent(page: int, maxPage: int)
    ensures ClampPage(ClampPage(page, maxPage), maxPage) == ClampPage(page, maxPage)
  {
  }

  /** First index of page `page` (inclusive). */
  function PageStart(perPage: PerPage, page: int): int
  {
    perPage * (page - 1)
  }

  /** Last index of page `page` (exclusive), cut at the list's end. */
  function PageEnd(size: nat, perPage: PerPage, page: int): int
  {
    if size < perPage * page then size else perPage * page
  }

  /** For a page inside `[1, maxPage]`, the sub-list bounds are valid and the page is
      non-empty and no longer than `perPage`. */
  lemma PageBounds(size: nat, perPage: PerPage, page: int)
    requires 1 <= page <= MaxPageFor(size, perPage)
    ensures 0 <= PageStart(perPage, page) < PageEnd(size, perPage, page) <= size
    ensures PageEnd(size, perPage, page) - PageStart(perPage, page) <= perPage
  {
    var maxPage := MaxPageFor(size, perPage);
    assert perPage * (page - 1) <= perPage * (maxPage - 1) by {
      assert perPage * (maxPage - 1) - perPage * (page - 1) == perPage * (maxPage - page);
    }
    assert perPage * page == perPage * (page - 1) + perPage;
  }

  /** `cmds.subList(perPage * (page - 1), Math.min(size, perPage * page))`. */
  function PageSlice<T>(xs: seq<T>, perPage: PerPage, page: int): (r: seq<T>)
    requires 1 <= page <= MaxPageFor(|xs|, perPage)
    ensures 0 < |r| <= perPage
    ensures 0 <= PageStart(perPage, page) && PageStart(perPage, page) + |r| <= |xs|
    ensures forall i :: 0 <= i < |r| ==> r[i] == xs[PageStart(perPage, page) + i]
    ensures PageStart(perPage, page) + |r| == |xs| || |r| == perPage
  {
    PageBounds(|xs|, perPage, page);
    xs[PageStart(perPage, page)..PageEnd(|xs|, perPage, page)]
  }

  /** Multiplication by a natural number is monotone. */
  lemma MulMonotone(a: int, b: int, c: nat)
    requires a <= b
    ensures a * c <= b * c
  {
    assert b * c - a * c == (b - a) * c;
  }

  /** Every entry is listed: entry `i` sits on page `i / perPage + 1`, at position
      `i % perPage`. */
  lemma PagesCover<T>(xs: seq<T>, perPage: PerPage, i: int)
    requires 0 <= i < |xs|
    ensures 1 <= i / perPage + 1 <= MaxPageFor(|xs|, perPage)
    ensures i % perPage < |PageSlice(xs, perPage, i / perPage + 1)|
    ensures PageSlice(xs, perPage, i / perPage + 1)[i % perPage] == xs[i]
  {
    var q := i / perPage;
    var m := i % perPage;
    var maxPage := MaxPageFor(|xs|, perPage);
    assert i == q * perPage + m;
    assert q < maxPage by {
      if q >= maxPage {
        MulMonotone(maxPage, q, perPage);
      }
    }
    PageBounds(|xs|, perPage, q + 1);
    assert PageStart(perPage, q + 1) == q * perPage;
    assert perPage * (q + 1) == q * perPage + perPage;
  }

  /** There are never more pages than entries. */
  lemma MaxPageAtMostSize(n: nat, perPage: PerPage)
    ensures MaxPageFor(n, perPage) <= n
  {
    var r := MaxPageFor(n, perPage);
    if r > 0 {
      MulMonotone(1, perPage, r - 1);
    }
  }
}

=== FILE: registry.dfy ===
/** The state of an `AbstractCommand`: its registered sub-commands, the optional built-in
    paginated help, registration, reload, the per-sender view of permitted sub-commands,
    and name lookup. */
module Registry {
  import opened Options
  import opened Seqs
  import opened Strings
  import opened Paging

  /** The host's command sender, reduced to what the dispatcher asks of it: which
      permissions it holds, whether it is a player, and (for players) whether the main
      hand is empty or air. */
  datatype Sender = Sender(perms: set<string>, isPlayer: bool, handEmpty: bool)

  predicate HasPermission(sender: Sender, permission: string)
  {
    permission in sender.perms
  }

  /** A sub-command as the dispatcher sees it. */
  datatype SubCmd = SubCmd(name: string, permission: string, playerOnly: bool, checkNonNullItem: bool)

  /** An element of the allowed view: a registered sub-command, or the built-in help
      pseudo-command (Java compares it by reference, here by variant). */
  datatype Entry = Registered(sub: SubCmd) | Help(sub: SubCmd)

  /** The built-in help pseudo-command and its page size. */
  datatype HelpState = HelpState(sub: SubCmd, perPage: PerPage)

  /** Registered sub-commands in registration order, and the help when multi-page help is on. */
  datatype Command = Command(subs: seq<SubCmd>, help: Option<HelpState>)

  const HelpName: string := "help"

  /** The help pseudo-command is named "help" and is neither player-only nor item-checked. */
  predicate Valid(cmd: Command)
  {
    cmd.help.Some? ==>
      var h := cmd.help.value.sub;
      h.name == HelpName && !h.playerOnly && !h.checkNonNullItem
  }

  /** The constructor: no sub-commands yet; help present iff `multiPageHelp`, with the page
      size taken from the configuration but never below four. */
  function NewCommand(multiPageHelp: bool, helpPermission: string, configuredPerPage: int): (r: Command)
    ensures Valid(r) && r.subs == []
    ensures r.help.Some? <==> multiPageHelp
    ensures r.help.Some? ==> r.help.value.sub.permission == helpPermission
    ensures r.help.Some? ==> r.help.value.perPage >= configuredPerPage
    ensures r.help.Some? ==> r.help.value.perPage == 4 || r.help.value.perPage == configuredPerPage
  {
    Command([], if multiPageHelp then
                  Some(HelpState(SubCmd(HelpName, helpPermission, false, false), PerPageFrom(configuredPerPage)))
                else None)
  }

  /** `registerSubCommand(SubCmd)`: appends, with no uniqueness check. */
  function RegisterSubCommand(cmd: Command, sub: SubCmd): (r: Command)
    ensures |r.subs| == |cmd.subs| + 1 && r.subs[..|cmd.subs|] == cmd.subs && r.subs[|cmd.subs|] == sub
    ensures r.help == cmd.help
  {
    cmd.(subs := cmd.subs + [sub])
  }

  /** What a `Supplier<SubCmd>` does when called. */
  datatype Supplied = Yields(sub: SubCmd) | YieldsNull | Throws

  /** The new registry and the boolean returned by a registration. */
  datatype Registration = Registration(cmd: Command, ok: bool)

  /** `registerSubCommand(Supplier)`: a null result or a thrown error registers nothing. */
  function RegisterSupplied(cmd: Command, supplied: Supplied): (r: Registration)
    ensures r.ok <==> supplied.Yields?
    ensures r.ok ==> r.cmd.subs == cmd.subs + [supplied.sub] && r.cmd.help == cmd.help
    ensures !r.ok ==> r.cmd == cmd
  {
    match supplied
    case Yields(sub) => Registration(RegisterSubCommand(cmd, sub), true)
    case YieldsNull => Registration(cmd, false)
    case Throws => Registration(cmd, false)
  }

  /** `registerSubCommand(Supplier, boolean)`: a false condition returns false whatever the
      supplier would have done. */
  function RegisterIf(cmd: Command, supplied: Supplied, condition: bool): (r: Registration)
    ensures !condition ==> r == Registration(cmd, false)
    ensures r.ok <==> condition && supplied.Yields?
    ensures r.ok ==> r.cmd.subs == cmd.subs + [supplied.sub] && r.cmd.help == cmd.help
    ensures !r.ok ==> r.cmd == cmd
  {
    if !condition then Registration(cmd, false) else RegisterSupplied(cmd, supplied)
  }

  /** One step of `reload()`. */
  datatype ReloadStep = ReloadConfig | ReloadSub(index: nat) | ReloadHelp

  datatype Reloaded = Reloaded(cmd: Command, steps: seq<ReloadStep>)

  /** `reload()`: the command's configuration first, then every registered sub-command in
      order, then the help, which re-reads its page size from the fresh configuration. */
  function Reload(cmd: Command, configuredPerPage: int): (r: Reloaded)
    ensures r.cmd.subs == cmd.subs
    ensures Valid(cmd) ==> Valid(r.cmd)
    ensures r.cmd.help.Some? <==> cmd.help.Some?
    ensures r.cmd.help.Some? ==> r.cmd.help.value.sub == cmd.help.value.sub
    ensures r.cmd.help.Some? ==> r.cmd.help.value.perPage >= configuredPerPage
    ensures r.cmd.help.Some? ==> r.cmd.help.value.perPage == 4 || r.cmd.help.value.perPage == configuredPerPage
    ensures |r.steps| == |cmd.subs| + (if cmd.help.Some? then 2 else 1)
    ensures r.steps[0] == ReloadConfig
    ensures forall i :: 0 <= i < |cmd.subs| ==> r.steps[i + 1] == ReloadSub(i)
    ensures cmd.help.Some? <==> r.steps[|r.steps| - 1] == ReloadHelp
  {
    var subSteps := seq(|cmd.subs|, i requires 0 <= i < |cmd.subs| => ReloadSub(i));
    match cmd.help
    case None =>
      Reloaded(cmd, [ReloadConfig] + subSteps)
    case Some(h) =>
      Reloaded(cmd.(help := Some(h.(perPage := PerPageFrom(configuredPerPage)))),
               [ReloadConfig] + subSteps + [ReloadHelp])
  }

  /** The registered sub-commands whose permission the sender holds, in registration order. */
  function Permitted(cmd: Command, sender: Sender): (r: seq<SubCmd>)
    ensures forall i :: 0 <= i < |r| ==> r[i] in cmd.subs && HasPermission(sender, r[i].permission)
    ensures forall s :: s in cmd.subs && HasPermission(sender, s.permission) ==> s in r
    ensures IsSubsequence(r, cmd.subs)
  {
    Filter(cmd.subs, (s: SubCmd) => HasPermission(sender, s.permission))
  }

  /** A sub-command registered several times is permitted as many times as it is registered
      when the sender holds its permission, and not at all otherwise. */
  lemma PermittedCounts(cmd: Command, sender: Sender)
    ensures forall s :: multiset(Permitted(cmd, sender))[s] ==
              if HasPermission(sender, s.permission) then multiset(cmd.subs)[s] else 0
  {
    FilterCounts(cmd.subs, (s: SubCmd) => HasPermission(sender, s.permission));
  }

  /** The help pseudo-command is listed: help is enabled and something is registered. */
  predicate ListsHelp(cmd: Command)
  {
    cmd.help.Some? && |cmd.subs| > 0
  }

  /** `getAllowedSubCommands`: the permitted registered sub-commands in registration order,
      then the help pseudo-command, whatever the sender's permissions, iff it is listed. */
  function AllowedSubCommands(cmd: Command, sender: Sender): (r: seq<Entry>)
    ensures |r| == |Permitted(cmd, sender)| + (if ListsHelp(cmd) then 1 else 0)
    ensures forall i :: 0 <= i < |Permitted(cmd, sender)| ==> r[i] == Registered(Permitted(cmd, sender)[i])
    ensures forall i :: 0 <= i < |r| && r[i].Registered? ==> r[i].sub in cmd.subs && HasPermission(sender, r[i].sub.permission)
    ensures forall s :: s in cmd.subs && HasPermission(sender, s.permission) ==> Registered(s) in r
    ensures forall i :: 0 <= i < |r| && r[i].Help? ==> i == |r| - 1 && ListsHelp(cmd) && r[i].sub == cmd.help.value.sub
    ensures ListsHelp(cmd) ==> r[|r| - 1] == Help(cmd.help.value.sub)
  {
    var permitted := Permitted(cmd, sender);
    var listed := seq(|permitted|, i requires 0 <= i < |permitted| => Registered(permitted[i]));
    var r := listed + if ListsHelp(cmd) then [Help(cmd.help.value.sub)] else [];
    assert forall s :: s in cmd.subs && HasPermission(sender, s.permission) ==> Registered(s) in r by {
      forall s | s in cmd.subs && HasPermission(sender, s.permission) ensures Registered(s) in r {
        var i :| 0 <= i < |permitted| && permitted[i] == s;
        assert r[i] == Registered(s);
      }
    }
    r
  }

  /** With help enabled, the allowed view is empty exactly when nothing is registered,
      whatever the sender's permissions. */
  lemma AllowedEmptyIffNothingRegistered(cmd: Command, sender: Sender)
    requires cmd.help.Some?
    ensures |AllowedSubCommands(cmd, sender)| == 0 <==> |cmd.subs| == 0
  {
    if |cmd.subs| == 0 {
      assert |Permitted(cmd, sender)| == 0;
    }
  }

  /** `getName().equalsIgnoreCase(token)`. */
  predicate Matches(sub: SubCmd, token: string)
  {
    EqualsIgnoreCase(sub.name, token)
  }

  /** No registered sub-command answers to `token`. */
  predicate NoMatch(subs: seq<SubCmd>, token: string)
  {
    forall j :: 0 <= j < |subs| ==> !Matches(subs[j], token)
  }

  /** `subs[i]` is the first registered sub-command answering to `token`. */
  predicate FirstMatch(subs: seq<SubCmd>, token: string, i: int)
  {
    0 <= i < |subs| && Matches(subs[i], token) && forall j :: 0 <= j < i ==> !Matches(subs[j], token)
  }

  /** Index of the first sub-command at or after `k` answering to `token`. */
  function FindFrom(subs: seq<SubCmd>, token: string, k: nat): (r: Option<nat>)
    ensures r.Some? ==> k <= r.value < |subs| && Matches(subs[r.value], token)
    ensures r.Some? ==> forall j :: k <= j < r.value ==> !Matches(subs[j], token)
    ensures r.None? ==> forall j :: k <= j < |subs| ==> !Matches(subs[j], token)
    decreases |subs| - k
  {
    if k >= |subs| then None
    else if Matches(subs[k], token) then Some(k)
    else FindFrom(subs, token, k + 1)
  }

  /** The fallback of `getSubCmd`: the help pseudo-command answers to `token` and the
      sender's allowed view is not empty. */
  predicate HelpResolves(cmd: Command, sender: Sender, token: string)
  {
    cmd.help.Some? && Matches(cmd.help.value.sub, token) && |AllowedSubCommands(cmd, sender)| > 0
  }

  /** `getSubCmd`: the first registered sub-command whose name equals `token` ignoring case;
      failing that the help pseudo-command; failing that nothing. */
  function GetSubCmd(cmd: Command, sender: Sender, token: string): (r: Option<Entry>)
    ensures forall i :: FirstMatch(cmd.subs, token, i) ==> r == Some(Registered(cmd.subs[i]))
    ensures NoMatch(cmd.subs, token) && HelpResolves(cmd, sender, token) ==> r == Some(Help(cmd.help.value.sub))
    ensures NoMatch(cmd.subs, token) && !HelpResolves(cmd, sender, token) ==> r.None?
    ensures r.Some? && r.value.Registered? ==> exists i :: FirstMatch(cmd.subs, token, i) && r.value.sub == cmd.subs[i]
    ensures r.Some? && r.value.Help? ==> NoMatch(cmd.subs, token) && HelpResolves(cmd, sender, token)
    ensures r.Some? && r.value.Help? ==> r.value.sub == cmd.help.value.sub
  {
    match FindFrom(cmd.subs, token, 0)
    case Some(i) =>
      Some(Registered(cmd.subs[i]))
    case None =>
      if HelpResolves(cmd, sender, token) then Some(Help(cmd.help.value.sub)) else None
  }

  /** Registering a sub-command whose name no earlier one answers to makes it reachable. */
  lemma RegisterThenResolve(cmd: Command, sender: Sender, sub: SubCmd)
    requires NoMatch(cmd.subs, sub.name)
    ensures GetSubCmd(RegisterSubCommand(cmd, sub), sender, sub.name) == Some(Registered(sub))
  {
    var c := RegisterSubCommand(cmd, sub);
    assert FirstMatch(c.subs, sub.name, |cmd.subs|) by {
      forall j | 0 <= j < |cmd.subs| ensures !Matches(c.subs[j], sub.name) {
        assert c.subs[j] == cmd.subs[j];
      }
    }
  }

  /** Registering a second sub-command under a name already taken (ignoring case) changes
      nothing for lookup: the earlier one shadows it. */
  lemma DuplicateIsShadowed(cmd: Command, sender: Sender, sub: SubCmd, i: int)
    requires 0 <= i < |cmd.subs| && Matches(cmd.subs[i], sub.name)
    ensures GetSubCmd(RegisterSubCommand(cmd, sub), sender, sub.name) == GetSubCmd(cmd, sender, sub.name)
  {
    var c := RegisterSubCommand(cmd, sub);
    var k := FindFrom(cmd.subs, sub.name, 0);
    assert k.Some?;
    assert FirstMatch(cmd.subs, sub.name, k.value);
    assert FirstMatch(c.subs, sub.name, k.value) by {
      forall j | 0 <= j <= k.value ensures c.subs[j] == cmd.subs[j] { }
    }
  }

  /** The names of a sequence of entries, in order. */
  function EntryNames(entries: seq<Entry>): (r: seq<string>)
    ensures |r| == |entries| && forall i :: 0 <= i < |entries| ==> r[i] == entries[i].sub.name
  {
    seq(|entries|, i requires 0 <= i < |entries| => entries[i].sub.name)
  }
}

=== FILE: seqs.dfy ===
/** Order-preserving filtering of sequences, used for every permission and prefix filter. */
module Seqs {

  /** `a` is obtained from `b` by deleting elements: same elements, same relative order. */
  predicate IsSubsequence<T(==)>(a: seq<T>, b: seq<T>)
    decreases |b|
  {
    if a == [] then true
    else if b == [] then false
    else if a[0] == b[0] then IsSubsequence(a[1..], b[1..])
    else IsSubsequence(a, b[1..])
  }

  /** The elements of `xs` that satisfy `keep`, in their original order. */
  function Filter<T(==)>(xs: seq<T>, keep: T -> bool): (r: seq<T>)
    ensures forall i :: 0 <= i < |r| ==> r[i] in xs && keep(r[i])
    ensures forall x :: x in xs && keep(x) ==> x in r
    ensures IsSubsequence(r, xs)
    decreases |xs|
  {
    if xs == [] then []
    else if keep(xs[0]) then [xs[0]] + Filter(xs[1..], keep)
    else Filter(xs[1..], keep)
  }

  /** Filtering keeps every occurrence of a kept element, duplicates included, and drops
      every occurrence of the others. */
  lemma {:induction false} FilterCounts<T(!new)>(xs: seq<T>, keep: T -> bool)
    ensures forall x :: multiset(Filter(xs, keep))[x] == if keep(x) then multiset(xs)[x] else 0
    decreases |xs|
  {
    if xs != [] {
      FilterCounts(xs[1..], keep);
      assert multiset(xs) == multiset([xs[0]]) + multiset(xs[1..]) by { assert xs == [xs[0]] + xs[1..]; }
    }
  }

  lemma {:induction false} SubsequenceShorter<T>(a: seq<T>, b: seq<T>)
    requires IsSubsequence(a, b)
    ensures |a| <= |b|
    decreases |b|
  {
    if a != [] && b != [] {
      if a[0] == b[0] {
        SubsequenceShorter(a[1..], b[1..]);
      } else {
        SubsequenceShorter(a, b[1..]);
      }
    }
  }
}

=== FILE: strings.dfy ===
/** String primitives of java.lang.String used by the command core, on ASCII case folding. */
module Strings {
  import opened Options

  /** ASCII lower-casing of one character; every other character is left alone. */
  function LowerChar(c: char): char
  {
    if 'A' <= c <= 'Z' then (c as int + 32) as char else c
  }

  /** `toLowerCase(Locale.ENGLISH)` restricted to ASCII: upper-case letters become their
      lower-case letter, everything else is kept. */
  function ToLower(s: string): (r: string)
    ensures |r| == |s|
    ensures forall i :: 0 <= i < |r| ==> !('A' <= r[i] <= 'Z')
    ensures forall i :: 0 <= i < |s| && 'A' <= s[i] <= 'Z' ==> r[i] as int == s[i] as int + 32
    ensures forall i :: 0 <= i < |s| && !('A' <= s[i] <= 'Z') ==> r[i] == s[i]
  {
    seq(|s|, i requires 0 <= i < |s| => LowerChar(s[i]))
  }

  /** `String.equalsIgnoreCase` restricted to ASCII folding. */
  function EqualsIgnoreCase(a: string, b: string): (r: bool)
    ensures r <==> ToLower(a) == ToLower(b)
  {
    var eq := |a| == |b| && forall i :: 0 <= i < |a| ==> LowerChar(a[i]) == LowerChar(b[i]);
    assert eq <==> ToLower(a) == ToLower(b) by {
      if ToLower(a) == ToLower(b) {
        forall i | 0 <= i < |a| ensures LowerChar(a[i]) == LowerChar(b[i]) {
          assert ToLower(a)[i] == ToLower(b)[i];
        }
      }
    }
    eq
  }

  /** `String.startsWith`: case-sensitive prefix test. */
  function StartsWith(s: string, prefix: string): (r: bool)
    ensures r <==> |prefix| <= |s| && forall i :: 0 <= i < |prefix| ==> s[i] == prefix[i]
  {
    var ok := |prefix| <= |s| && s[..|prefix|] == prefix;
    assert ok <==> |prefix| <= |s| && forall i :: 0 <= i < |prefix| ==> s[i] == prefix[i] by {
      if |prefix| <= |s| && forall i :: 0 <= i < |prefix| ==> s[i] == prefix[i] {
        assert s[..|prefix|] == prefix;
      }
    }
    ok
  }

  /** `m` occurs in `s` starting at position `i`. */
  predicate Occurs(s: string, m: string, i: int)
  {
    0 <= i && i + |m| <= |s| && s[i..i + |m|] == m
  }

  lemma OccursInTail(s: string, m: string, j: int)
    requires |s| > 0 && Occurs(s[1..], m, j)
    ensures Occurs(s, m, j + 1)
  {
    assert s[1..][j..j + |m|] == s[j + 1..j + 1 + |m|];
  }

  /** First occurrence of `m` in `s` at or after position `k`. */
  function IndexFrom(s: string, m: string, k: nat): (r: Option<nat>)
    ensures r.Some? ==> k <= r.value && Occurs(s, m, r.value)
    ensures r.Some? ==> forall j :: k <= j < r.value ==> !Occurs(s, m, j)
    ensures r.None? ==> forall j :: k <= j ==> !Occurs(s, m, j)
    decreases |s| - k
  {
    if k + |m| > |s| then None
    else if s[k..k + |m|] == m then Some(k)
    else IndexFrom(s, m, k + 1)
  }

  /** `String.indexOf`, with `None` for Java's -1. */
  function IndexOf(s: string, m: string): (r: Option<nat>)
    ensures r.Some? ==> Occurs(s, m, r.value) && forall j :: 0 <= j < r.value ==> !Occurs(s, m, j)
    ensures r.None? ==> forall j :: !Occurs(s, m, j)
  {
    IndexFrom(s, m, 0)
  }

  /** A string cut around the first occurrence of a marker; `rest` is `None` (Java `null`)
      when the marker does not occur, and `head` is then the whole string. */
  datatype Split = Split(head: string, rest: Option<string>)

  function SplitFirst(s: string, m: string): (r: Split)
    ensures r.rest.None? ==> r.head == s && forall j :: !Occurs(s, m, j)
    ensures r.rest.Some? ==> s == r.head + m + r.rest.value
    ensures r.rest.Some? ==> Occurs(s, m, |r.head|) && forall j :: 0 <= j < |r.head| ==> !Occurs(s, m, j)
  {
    match IndexOf(s, m)
    case None => Split(s, None)
    case Some(i) =>
      assert s == s[..i] + s[i..i + |m|] + s[i + |m|..];
      Split(s[..i], Some(s[i + |m|..]))
  }

  lemma OccursInPrefix(s: string, k: nat, m: string, j: int)
    requires k <= |s| && Occurs(s[..k], m, j)
    ensures Occurs(s, m, j) && j + |m| <= k
  {
    assert s[..k][j..j + |m|] == s[j..j + |m|];
  }

  /** The head of a split never contains the marker: the cut is at its first occurrence. */
  lemma SplitHeadClean(s: string, m: string)
    requires |m| > 0
    ensures forall j :: !Occurs(SplitFirst(s, m).head, m, j)
  {
    var sp := SplitFirst(s, m);
    if sp.rest.Some? {
      var k := |sp.head|;
      assert sp.head == s[..k];
      forall j ensures !Occurs(sp.head, m, j) {
        if Occurs(s[..k], m, j) { OccursInPrefix(s, k, m, j); }
      }
    }
  }

  /** When the marker occurs, the head is exactly the text in front of `indexOf`. */
  lemma SplitHeadIsPrefix(s: string, m: string)
    requires SplitFirst(s, m).rest.Some?
    ensures IndexOf(s, m) == Some(|SplitFirst(s, m).head|)
    ensures s[..IndexOf(s, m).value] == SplitFirst(s, m).head
  {
    var sp := SplitFirst(s, m);
    assert s[..|sp.head|] == sp.head;
  }

  /** `String.replace(target, replacement)`: every occurrence of `pat`, scanned left to right
      without overlap, is replaced by `rep`. */
  function ReplaceAll(s: string, pat: string, rep: string): (r: string)
    requires |pat| > 0
    ensures |s| < |pat| ==> r == s
    ensures StartsWith(s, pat) ==> StartsWith(r, rep)
    decreases |s|
  {
    if |s| < |pat| then s
    else if s[..|pat|] == pat then rep + ReplaceAll(s[|pat|..], pat, rep)
    else [s[0]] + ReplaceAll(s[1..], pat, rep)
  }

  /** Replacing a pattern that does not occur leaves the text as it is. */
  lemma {:induction false} ReplaceAbsent(s: string, pat: string, rep: string)
    requires |pat| > 0
    requires forall j :: !Occurs(s, pat, j)
    ensures ReplaceAll(s, pat, rep) == s
    decreases |s|
  {
    if |s| >= |pat| {
      assert !Occurs(s, pat, 0);
      forall j ensures !Occurs(s[1..], pat, j) {
        if Occurs(s[1..], pat, j) { OccursInTail(s, pat, j); }
      }
      ReplaceAbsent(s[1..], pat, rep);
      assert s == [s[0]] + s[1..];
    }
  }

  lemma ReplaceAtHead(s: string, pat: string, rep: string)
    requires 0 < |pat| <= |s| && s[..|pat|] == pat
    ensures ReplaceAll(s, pat, rep) == rep + ReplaceAll(s[|pat|..], pat, rep)
  {
  }

  lemma ReplaceSkip(s: string, pat: string, rep: string)
    requires 0 < |pat| <= |s| && !Occurs(s, pat, 0)
    ensures ReplaceAll(s, pat, rep) == [s[0]] + ReplaceAll(s[1..], pat, rep)
  {
  }

  lemma LeftmostTail(a: string, pat: string, b: string)
    requires |a| > 0
    requires forall j :: 0 <= j < |a| ==> !Occurs(a + pat + b, pat, j)
    ensures (a + pat + b)[1..] == a[1..] + pat + b
    ensures forall j :: 0 <= j < |a| - 1 ==> !Occurs(a[1..] + pat + b, pat, j)
  {
    var s := a + pat + b;
    assert s[1..] == a[1..] + pat + b;
    forall j | 0 <= j < |a| - 1 ensures !Occurs(a[1..] + pat + b, pat, j) {
      if Occurs(s[1..], pat, j) { OccursInTail(s, pat, j); }
    }
  }

  /** Replacement is leftmost-first: text in front of the first occurrence is copied, the
      occurrence is replaced, and scanning resumes after it. */
  lemma {:induction false} ReplaceLeftmost(a: string, pat: string, rep: string, b: string)
    requires |pat| > 0
    requires forall j :: 0 <= j < |a| ==> !Occurs(a + pat + b, pat, j)
    ensures ReplaceAll(a + pat + b, pat, rep) == a + rep + ReplaceAll(b, pat, rep)
  {
    var s := a + pat + b;
    if a == [] {
      assert s == pat + b;
      assert s[..|pat|] == pat;
      assert s[|pat|..] == b;
      ReplaceAtHead(s, pat, rep);
    } else {
      var a' := a[1..];
      LeftmostTail(a, pat, b);
      ReplaceSkip(s, pat, rep);
      ReplaceLeftmost(a', pat, rep, b);
      assert a + rep + ReplaceAll(b, pat, rep) == [a[0]] + (a' + rep + ReplaceAll(b, pat, rep));
    }
  }
}
